=== FILE: README.md ===
# DotNetUtils core in Dafny

A Dafny model of three pieces of the DotNetUtils infrastructure library,
with proofs of what each promises.

- **Periodical batch processor** (`PeriodicalBatch<TMessage>` and its
  options, builder and producer). Messages published into an unbounded
  channel are drained into an internal queue. A timer tick or a size
  trigger starts a flush attempt. The attempt takes an `Interlocked` flag,
  repeats `HandleBatch()` rounds and hands each chunk of at most `BatchSize`
  items to the handler, optionally behind a wait-and-retry policy.
  - The model is a sequential state machine over `Batcher` (channel,
    queue, log of dispatched chunks, lock flag, timer flag).
  - Each operation is one atomic step: `Publish`, `DrainStep` and
    `SafeHandleQueue`.
  - `Run` applies a sequence of such events.
  - An exception escaping the flush body is the parameter `fault`.
  - A flush whose do/while does not end on its own is the outcome
    `Diverges`: it spins with the lock held and the timer stopped.
- **Date period overlap** (`DateTimePeriod`, `DateTimeUtil.IsOverlap`,
  `OverlapPeriod`, `OverlapResult`).
  - `DateTime` is its tick count, from 0 to `DateTime.MaxValue.Ticks`.
  - The four constructors, equality and hashing are modelled.
  - The pairwise overlap test and the nested loops that collect every
    overlapping pair are modelled.
- **Host naming helpers** of `CloudWorkerApp` and `CloudWebApp`:
  - the application name from a namespace, and the name selection in `Build`;
  - the `DOTNET_ENVIRONMENT` default and the production test;
  - the assembly filters on `".Worker, "` and `".BL, "`;
  - the "+build" timestamp in an informational version, and the `/version` text.

Files: `wrappers.dfy` (Option, Result, exceptions), `text.dfy` (string
helpers standing in for `Split`, `IndexOf`, ordinal-ignore-case
comparison and decimal formatting), `batch_options.dfy`,
`periodical_batch.dfy`, `date_periods.dfy`, `date_overlap.dfy` and
`cloud_apps.dfy`.

Three behaviours of the code are worth knowing before reading the proofs:

- A flush keeps going only while **more than** `BatchSize` items remain.
  It can therefore leave a full batch queued, not only fewer than one
  batch. `PeriodicalBatch.UncontendedFlush` proves 1 to `BatchSize` items
  are left.
- The lock flag does **not** give mutual exclusion. This is the second
  finding below.
- The retry delays are `0.5 + 2^(n-1)` seconds, that is 1.5 s, 2.5 s and
  4.5 s.

## Model

| member | source | states |
|---|---|---|
| BatchOptions.Empty | PeriodicalBatch.cs:175-183 | fresh options hold batches of 300, a 3-second period, retry on and 3 retries |
| BatchOptions.Apply | PeriodicalBatch.cs:195-217 | each builder call assigns its own field without validation and keeps every other field |
| BatchOptions.Configure | PeriodicalBatch.cs:195-217 | builder calls applied in order: no calls change nothing, no call turns retry back on, and a field no call names keeps its value |
| BatchOptions.Build | PeriodicalBatch.cs:186-222 | with no calls `Build()` returns the defaults, and a field no call names keeps its default |
| BatchOptions.BuildFields | PeriodicalBatch.cs:175-223 | in the built options each field is the value of the last builder call on that field, else its default (300, 3 s, retry on, 3 retries); `Retry` is off iff some call was `WithoutRetry` |
| BatchOptions.ConfigureChecked | PeriodicalBatch.cs:195-199 | corrected builder: it fails with ArgumentOutOfRange exactly when some call sets a batch size below one or above `Array.MaxLength`, and otherwise agrees with the unchecked builder |
| BatchOptions.BuildChecked | PeriodicalBatch.cs:195-199 | corrected `Build()`: it succeeds iff every `WithBatchSize` argument lies between one and `Array.MaxLength`, and the result then has such a batch size and equals `Build` |
| BatchOptions.RetryDelayMs | PeriodicalBatch.cs:34 | every retry waits at least 1.5 s, and the first waits exactly 1.5 s |
| BatchOptions.RetryDelayDoubles | PeriodicalBatch.cs:34 | the first retry waits 1.5 s and the backoff part doubles per attempt |
| BatchOptions.RetryDelaysIncrease | PeriodicalBatch.cs:34 | a later retry always waits strictly longer |
| BatchOptions.RetrySchedule | PeriodicalBatch.cs:32-34 | `RetryCount` sleeps, the k-th being `0.5 + 2^(k-1)` s, strictly increasing |
| BatchOptions.HandlerInvocation | PeriodicalBatch.cs:125-135 | the handler is called directly iff `Retry` is off; otherwise it runs behind a policy with `RetryCount` sleeps, and the policy refuses a negative count |
| PeriodicalBatch.Publish | PeriodicalBatch.cs:228-236 | the message joins the back of the channel and nothing else changes |
| PeriodicalBatch.DrainStep | PeriodicalBatch.cs:49-56 | the oldest channel message moves to the back of the queue and the queue-then-channel order is kept; a flush is scheduled iff a message moved and the queue now holds at least `BatchSize` |
| PeriodicalBatch.SizeTriggerFires | PeriodicalBatch.cs:67-73 | an empty queue fires the size trigger iff the batch size is below one, and such a size fires it always; `DrainStep` states when a flush is scheduled |
| PeriodicalBatch.ChunkLength | PeriodicalBatch.cs:107-115 | once the chunk list exists a round takes `min(BatchSize, available)` items: exactly `BatchSize` when that many are queued, all of them when fewer are, nothing for a batch size of 0, and at least one when both are positive |
| PeriodicalBatch.DequeueChunk | PeriodicalBatch.cs:106-115 | creating the chunk list throws iff the batch size is negative (ArgumentOutOfRange) or above `Array.MaxLength` (OutOfMemory), and then nothing is dequeued; otherwise the loop splits the queue into the chunk it takes and the rest, with the chunk of `ChunkLength` items |
| PeriodicalBatch.TakeChunk | PeriodicalBatch.cs:99-117 | `HandleBatch()` does nothing on an empty queue; with items queued it throws iff the batch size is negative (ArgumentOutOfRange) or above `Array.MaxLength` (OutOfMemory); otherwise it appends exactly one chunk (the queue's front) to the dispatched log |
| PeriodicalBatch.FlushLoop | PeriodicalBatch.cs:81-85 | the do/while rounds dispatch chunks that, followed by what stays queued, are the original queue; every chunk holds 1 to `BatchSize` items and at most `BatchSize` items stay |
| PeriodicalBatch.FlushLoopRounds | PeriodicalBatch.cs:81-85 | at most `BatchSize` items go out as one chunk; more go out as full chunks of `BatchSize` and leave between 1 and `BatchSize` queued |
| PeriodicalBatch.FlushLoopFirstRound | PeriodicalBatch.cs:81-85 | for a batch size the chunk list accepts, the first round of the loop is one `HandleBatch()`, and the loop continues on what that round leaves iff more than a batch remains |
| PeriodicalBatch.Enter | PeriodicalBatch.cs:79-80 | the timer stops and the flag is set to 1; the attempt acquires the lock iff the flag was 0 |
| PeriodicalBatch.Release | PeriodicalBatch.cs:91-96 | the `finally` clears the flag and restarts the timer, keeping all messages |
| PeriodicalBatch.FlushBody | PeriodicalBatch.cs:81-90 | the try body dispatches a prefix of the loop's chunks, even when an exception cuts it short, and keeps the rest queued in order; without an exception it dispatches all of them; a logged error implies an exception |
| PeriodicalBatch.SafeHandleQueue | PeriodicalBatch.cs:75-97 | an attempt diverges iff it gets the lock and either the batch size is 0 with items queued or the batch size is negative with the queue empty; with the lock, items queued and a size that is negative or above `Array.MaxLength` it logs an exception and dispatches nothing; a completed attempt leaves the flag 0 and the timer running, with the dispatched log extended and no message lost; a contended attempt dispatches nothing |
| PeriodicalBatch.UncontendedFlushState | PeriodicalBatch.cs:75-97 | an uncontended attempt without an exception dispatches exactly the loop's chunks and leaves its remainder queued; with a size above `Array.MaxLength` and items queued it logs and changes nothing |
| PeriodicalBatch.UncontendedFlush | PeriodicalBatch.cs:81-85 | after an uncontended flush with a size up to `Array.MaxLength`, at most a batch leaves as one chunk, and more leave as full chunks with 1 to `BatchSize` items left; a larger size dispatches nothing |
| PeriodicalBatch.CompletedChunksBounded | PeriodicalBatch.cs:81-115 | every chunk any completed attempt hands over, including one cut short by an exception, holds 1 to `BatchSize` items |
| PeriodicalBatch.ContendedAttemptReleasesForeignLock | PeriodicalBatch.cs:79-96 | an attempt that finds the lock taken still clears it, so a second attempt acquires it and, with a size up to `Array.MaxLength`, dispatches while the first holder runs |
| PeriodicalBatch.SafeHandleQueueExclusive | PeriodicalBatch.cs:75-97 | corrected attempt: a contended attempt changes nothing, and with the lock free it is the original attempt |
| PeriodicalBatch.ExclusiveAttemptKeepsLock | PeriodicalBatch.cs:80 | with the corrected attempt, a held lock stays held across further attempts |
| PeriodicalBatch.NegativeBatchSize | PeriodicalBatch.cs:75-106 | with `WithBatchSize(-1)` the first flush after one publish logs an exception and leaves the message queued, and a flush of an empty queue spins with the lock held (`Diverges`) |
| PeriodicalBatch.ZeroBatchSizeDiverges | PeriodicalBatch.cs:85 | with `WithBatchSize(0)` the first flush after one publish never returns |
| PeriodicalBatch.OversizedBatchSize | PeriodicalBatch.cs:75-106 | with `WithBatchSize(int.MaxValue)` the first flush after one publish cannot allocate the chunk list, logs the exception and leaves the message queued |
| PeriodicalBatch.CheckedOptionsNeverDiverge | PeriodicalBatch.cs:81-85 | with options from the corrected builder, every flush attempt returns |
| PeriodicalBatch.CheckedOptionsOnlyFaultsLog | PeriodicalBatch.cs:81-106 | with options from the corrected builder, an attempt with no injected fault never logs an exception |
| PeriodicalBatch.FiveItemsRounds | PeriodicalBatch.cs:81-85 | five items with batch size 2 go out as [1,2] and [3,4], leaving [5]; [5] alone goes out as one chunk |
| PeriodicalBatch.FiveItemsBatchSizeTwo | PeriodicalBatch.cs:75-97 | the worked example: one flush dispatches [1,2] then [3,4] and leaves [5]; the next flush dispatches [5] |
| PeriodicalBatch.Step | PeriodicalBatch.cs:40-97 | an event fails to return iff it is a flush that gets the lock with a batch size of 0 and items queued, or a negative size and an empty queue; only a flush dispatches, and it only appends to the log |
| PeriodicalBatch.Run | PeriodicalBatch.cs:40-97 | no events leave the state as it is, and over a run the dispatched log only grows |
| PeriodicalBatch.StepConserves | PeriodicalBatch.cs:40-97 | each event keeps every held message in order and appends only what it publishes; the lock is free and the timer runs between events |
| PeriodicalBatch.RunConserves | PeriodicalBatch.cs:40-97 | over any run of events no message is lost, duplicated or reordered: the held messages are the earlier ones followed by the published ones |
| PeriodicalBatch.DispatchedIsPublishedPrefix | PeriodicalBatch.cs:40-97 | from a fresh start the dispatched items are a prefix of the published messages, in publish order |
| DateTimePeriods.FromDateTimes | DateTiveOverlap/DateTimePeriod.cs:8-12 | the ends are stored as given, with no ordering check |
| DateTimePeriods.FromDates | DateTiveOverlap/DateTimePeriod.cs:14-19 | each end is the day's midnight, and dividing by ticks-per-day gives the day back |
| DateTimePeriods.MinValuePlus | DateTiveOverlap/DateTimePeriod.cs:26-29 | `DateTime.MinValue + span` succeeds iff the result is within range, and then has the span's ticks; otherwise it throws ArgumentOutOfRange |
| DateTimePeriods.FromTimeSpans | DateTiveOverlap/DateTimePeriod.cs:26-29 | the constructor succeeds iff both spans are within range, and then stores their tick counts |
| DateTimePeriods.FromTimes | DateTiveOverlap/DateTimePeriod.cs:21-24 | the ends lie in day 0 at the given times of day, and the result equals the `TimeSpan` constructor's result |
| DateTimePeriods.Equals | DateTiveOverlap/DateTimePeriod.cs:34-41 | `Equals(object)` holds exactly for a boxed period with the same two ends, never for null or another type |
| DateTimePeriods.Eq | DateTiveOverlap/DateTimePeriod.cs:48-51 | `==` holds iff the two periods have the same ends |
| DateTimePeriods.Neq | DateTiveOverlap/DateTimePeriod.cs:53-56 | `!=` holds iff some end differs |
| DateTimePeriods.EqualityLaws | DateTiveOverlap/DateTimePeriod.cs:34-56 | `Equals` and `==` hold iff both ends agree; null and other types are never equal; it is an equivalence relation; `!=` is its negation |
| DateTimePeriods.GetHashCode | DateTiveOverlap/DateTimePeriod.cs:58-61 | the hash is the string hash of "from.to" ticks; its contract lives in the two lemmas below |
| DateTimePeriods.HashAgreesWithEquals | DateTiveOverlap/DateTimePeriod.cs:58-61 | equal periods have equal hash codes, whatever the string hash |
| DateTimePeriods.HashKeyInjective | DateTiveOverlap/DateTimePeriod.cs:58-61 | the "from.to" tick string determines the period |
| DateTimeOverlap.MakeResult | DateTiveOverlap/OverlapResult.cs:9-14 | a null sequence throws ArgumentNull; otherwise the sequence is kept and `HasOverlaps` holds iff it is non-empty |
| DateTimeOverlap.Default | DateTiveOverlap/OverlapResult.cs:20-26 | the default result has no overlaps and a null sequence |
| DateTimeOverlap.DateBetween | DateTiveOverlap/DateTimeUtil.cs:53-56 | an instant is never between a period's own ends, and nothing is between the ends of a period that does not run forward |
| DateTimeOverlap.PeriodBetween | DateTiveOverlap/DateTimeUtil.cs:46-51 | a period never lies between itself, and nothing lies between the ends of a period that does not run forward |
| DateTimeOverlap.Overlaps | DateTiveOverlap/DateTimeUtil.cs:38-44 | equal periods overlap; distinct forward periods that are disjoint or only touch do not |
| DateTimeOverlap.OverlapsSymmetric | DateTiveOverlap/DateTimeUtil.cs:38-44 | the pairwise test ignores argument order, and a period overlaps itself |
| DateTimeOverlap.TouchingDoesNotOverlap | DateTiveOverlap/DateTimeUtil.cs:46-56 | periods that only touch at an end do not overlap |
| DateTimeOverlap.OverlapsIffIntersect | DateTiveOverlap/DateTimeUtil.cs:38-56 | for two periods whose start precedes their end, the pairwise test holds iff their open intervals intersect (the later start is before the earlier end) |
| DateTimeOverlap.Row | DateTiveOverlap/DateTimeUtil.cs:24-31 | the inner loop reports pairs (i, j) with j at or after the start column |
| DateTimeOverlap.Scan | DateTiveOverlap/DateTimeUtil.cs:22-32 | the outer loop reports only pairs i < j of valid indices |
| DateTimeOverlap.ScanCount | DateTiveOverlap/DateTimeUtil.cs:22-32 | the loops report at most n(n-1)/2 pairs |
| DateTimeOverlap.RowSound | DateTiveOverlap/DateTimeUtil.cs:24-31 | every pair the inner loop reports overlaps, in increasing column order |
| DateTimeOverlap.ScanSound | DateTiveOverlap/DateTimeUtil.cs:22-32 | every reported pair overlaps, in lexicographic order |
| DateTimeOverlap.RowComplete | DateTiveOverlap/DateTimeUtil.cs:24-31 | every overlapping later column is reported by the inner loop |
| DateTimeOverlap.ScanComplete | DateTiveOverlap/DateTimeUtil.cs:22-32 | every overlapping pair i < j is reported |
| DateTimeOverlap.OverlapIndicesExact | DateTiveOverlap/DateTimeUtil.cs:22-32 | the reported pairs are exactly the overlapping pairs i < j, each once, in lexicographic order, at most n(n-1)/2 |
| DateTimeOverlap.SomeOverlapIffReported | DateTiveOverlap/DateTimeUtil.cs:22-35 | something is reported iff some pair overlaps |
| DateTimeOverlap.RowPeriodsArePairs | DateTiveOverlap/DateTimeUtil.cs:24-31 | the periods the inner loop collects are those of the pairs it reports, in order |
| DateTimeOverlap.RowPrefixThenRest | DateTiveOverlap/DateTimeUtil.cs:24-31 | what the inner loop has collected, followed by the rest of the row, is the whole row |
| DateTimeOverlap.CollectRow | DateTiveOverlap/DateTimeUtil.cs:24-31 | the imperative inner loop collects an `OverlapPeriod` for exactly the reported pairs of its row |
| DateTimeOverlap.CollectOverlaps | DateTiveOverlap/DateTimeUtil.cs:21-32 | the imperative nested loops collect an `OverlapPeriod` for exactly the reported pairs, in order |
| DateTimeOverlap.IsOverlap | DateTiveOverlap/DateTimeUtil.cs:15-36 | a null array or fewer than two periods gives the default; otherwise the result lists the overlapping pairs, and `HasOverlaps` holds iff some pair i < j overlaps |
| DateTimeOverlap.IsOverlapSequence | DateTiveOverlap/DateTimeUtil.cs:10-13 | a null sequence throws ArgumentNull; otherwise the result is the array overload's |
| CloudApps.NameFromNamespace | WorkerAppBulder/CloudWorkerApp.cs:103-108 | the name has no dot, and is the third part of a four-part namespace, else the last part |
| CloudApps.DotlessNamespaceIsName | WorkerAppBulder/CloudWorkerApp.cs:103-108 | a namespace without a dot is itself the name |
| CloudApps.NameFromParts | CloudAppBuilder/CloudWebApp.cs:90-95 | for a namespace joined from dot-free parts, four parts give the third and any other count gives the last |
| CloudApps.GetApplicationName | WorkerAppBulder/CloudWorkerApp.cs:103-108 | a null namespace throws NullReference; otherwise the name from the namespace |
| CloudApps.SelectApplicationName | WorkerAppBulder/CloudWorkerApp.cs:31-34 | a non-empty explicit name wins; otherwise the name comes from the base type's namespace |
| CloudApps.GetEnvironment | WorkerAppBulder/CloudWorkerApp.cs:131-140 | an unset or empty variable gives "Production"; anything else is kept verbatim; the result is never empty |
| CloudApps.GetEnvironmentIdempotent | WorkerAppBulder/CloudWorkerApp.cs:131-140 | feeding the environment back in gives the same environment |
| CloudApps.IsProduction | WorkerAppBulder/CloudWorkerApp.cs:91-97 | the ignore-case comparison with "production" holds iff the lower-cased environment is "production" |
| CloudApps.ProductionExamples | WorkerAppBulder/CloudWorkerApp.cs:91-97 | the default environment is production; "Development" and "Staging" are not |
| CloudApps.GetApplicationInfo | WorkerAppBulder/CloudWorkerApp.cs:89-101 | the info carries the name and environment, with `IsProduction` iff the lower-cased environment is "production" |
| CloudApps.WorkerIdentity | WorkerAppBulder/CloudWorkerApp.cs:26-37 | name selection fails iff there is no explicit name and no namespace; an unset environment variable yields a production identity |
| CloudApps.FilterAssemblies | WorkerAppBulder/CloudWorkerApp.cs:48-52 | an assembly is kept iff its full name is non-null and contains the marker |
| CloudApps.FilterAppend | WorkerAppBulder/CloudWorkerApp.cs:48-52 | the filter keeps load order: filtering a concatenation concatenates the filtered parts |
| CloudApps.FillAssemblies | CloudAppBuilder/CloudWebApp.cs:72-80 | both lists keep their old contents and gain the same selected assemblies, which are the loaded ones whose name has the marker, in load order (the filter's result) |
| CloudApps.BuildTimestampText | CloudAppBuilder/CloudWebApp.cs:280-286 | the text after the first "+build" when that occurrence is not at index 0; none iff "+build" is absent or first occurs at index 0 |
| CloudApps.GetLinkerTime | CloudAppBuilder/CloudWebApp.cs:272-296 | no attribute or no usable marker gives the minimum date; otherwise the timestamp is parsed, and a failed parse throws FormatException |
| CloudApps.VersionText | CloudAppBuilder/CloudWebApp.cs:264-268 | "version undefined" iff the date is the minimum; otherwise the formatted date |
| CloudApps.UnmarkedVersionIsUndefined | CloudAppBuilder/CloudWebApp.cs:264-295 | a version string without "+build" reports "version undefined" |
| Text.SplitJoin | WorkerAppBulder/CloudWorkerApp.cs:105 | `Split` inverts joining dot-free parts, which makes the namespace parts above well defined |
| Text.DecimalRoundTrip | DateTiveOverlap/DateTimePeriod.cs:60 | the decimal tick text reads back as the tick count, so the hash key separates periods |

## Left out

- Concurrency is out. The drain loop, timer callbacks, fire-and-forget
  size-trigger tasks, `Task.Run`/`ContinueWith` and the thread-safety of
  `ConcurrentQueue` and the channel are all absent. Each operation is
  one atomic step, and interleavings are sequences of such steps. The
  lock finding is shown at this level: one attempt's `finally` runs
  between two others.
- The timer interval (`Period`) is only stored. No clock is modelled.
- The handler is asynchronous, and the handler call and the retry
  policy's execution (Polly) are not modelled. What is modelled is
  whether the policy wraps the handler, and its sleep schedule.
- Channel completion (`TryComplete`) and cancellation are not modelled.
  The `PublishAsync` catch-and-log path is not modelled either, since
  writes to an unbounded channel succeed.
- Logging and dependency-injection registration
  (`AddPeriodicalBatchService`) are not modelled.
- Shutdown does no final flush. The model adds none either.
- `Diverges` for a negative batch size on an empty queue is a spin that
  a message drained concurrently would end by making a round throw. With
  one atomic step at a time no message can arrive during the spin, so the
  model does not show that exit. With a batch size of 0 the spin really
  is endless.
- `BatchSize` is a 32-bit `int` in the code and an unbounded integer in
  the model. The builder cannot produce values outside the `int` range,
  so no contract depends on the difference.
- Allocating the chunk list can also fail below `Array.MaxLength` when
  memory runs short. Only the fixed array limit is modelled, not the
  memory available.
- An exception is assumed to escape the flush body only between rounds
  (`fault`). A chunk is never half-dequeued.
- BatchOptions.RetryDelayMs: unbounded integers. The C# double/`TimeSpan`
  overflows from attempt 41 on; that is not modelled.
- CloudApps.IsProduction: folds ASCII letters only. .NET's
  `OrdinalIgnoreCase` also folds other Unicode letters. "production" is
  ASCII, but a non-ASCII environment name could compare differently.
- CloudApps.BuildTimestampText: uses an ordinal `IndexOf`. .NET's
  `string.IndexOf(string)` without a comparison argument is
  culture-sensitive, which differs only on unusual text around "+build".
- `DateTime.ParseExact` with "yyyy-MM-ddTHH:mm:ss:fffZ" and
  `DateTime.ToString("yyyyMMdd_HHmmss")` are parameters, so their formats
  are not modelled. `DateTimePeriod.ToString` is not modelled.
- `string.GetHashCode` is randomised per process. It is the parameter
  `stringHash`.
- `DateTime.Kind` is not modelled. The `DateTime` constructor stores it,
  but nothing modelled can observe it: `==`, `<` and `>` on `DateTime`
  compare ticks only, and `GetHashCode` formats `.Ticks`.
- The rest of the host wiring is not modelled: configuration, Consul,
  Serilog, service registration, `UseUrls`, middleware and endpoints.
- The web host's `IsProduction` comes from the hosting framework's
  `IWebHostEnvironment`. Only the worker's comparison is modelled.
- The builder and parameter-bag classes only carry values into `Build`.
  They appear here as the `explicit`/`ns` arguments and `AssemblyLists`.
- `EmailTester` is not part of this model.

## Findings

| source | as written | input that shows it | evidently intended | confidence | as-written member | corrected member |
|---|---|---|---|---|---|---|
| PeriodicalBatch.cs:195-199 | `WithBatchSize` stores any int. With a batch size of 0, `HandleBatch()` takes nothing, so `while (_queue.Count > BatchSize)` never becomes false once the queue is non-empty. With a negative size, a non-empty queue makes `new List<TMessage>(BatchSize)` throw on every flush, so nothing is ever dispatched; on an empty queue the loop spins with the lock held and the timer stopped until a drained message makes a round throw. A size above `Array.MaxLength` (0x7FFFFFC7), such as `int.MaxValue`, likewise makes that allocation throw on every flush of a non-empty queue. | `WithBatchSize(0)`, then one published message that is drained and flushed; or `WithBatchSize(-1)` and a flush of an empty queue; or `WithBatchSize(int.MaxValue)`, then one message | reject a batch size below one or above the array limit, as the defaults and the chunk capacity assume | not executed | PeriodicalBatch.ZeroBatchSizeDiverges (with PeriodicalBatch.NegativeBatchSize and PeriodicalBatch.OversizedBatchSize) | BatchOptions.BuildChecked (with PeriodicalBatch.CheckedOptionsNeverDiverge and PeriodicalBatch.CheckedOptionsOnlyFaultsLog) |
| PeriodicalBatch.cs:80-95 | An attempt that finds `_locker` already 1 returns from the `try`, but its `finally` still writes 0 and restarts the timer. The holder's lock is released while it is flushing. | flag 1 (a flush running) and a non-empty queue: a timer tick, then a size-trigger attempt | only the attempt that acquired the lock releases it, giving at most one flush at a time | not executed | PeriodicalBatch.ContendedAttemptReleasesForeignLock | PeriodicalBatch.SafeHandleQueueExclusive (with PeriodicalBatch.ExclusiveAttemptKeepsLock) |

=== FILE: batch_options.dfy ===
/** The configuration surface of the periodical batch processor:
    `PeriodicalBatchOptions`, `PeriodicalBatchOptionsBuilder` and the
    retry policy's sleep-duration schedule. */
module BatchOptions {
  import opened Wrappers

  /** `PeriodicalBatchOptions`; `Period` is held in whole milliseconds. */
  datatype Options = Options(batchSize: int, periodMs: int, retry: bool, retryCount: int)

  const DefaultBatchSize: int := 300
  const DefaultPeriodMs: int := 3000
  const DefaultRetryCount: int := 3

  /** `PeriodicalBatchOptions.Empty`: a fresh options object, i.e. the property
      initialisers: batches of 300, a 3-second period, retry on, 3 retries. */
  function Empty(): (r: Options)
    ensures r.batchSize == 300 && r.periodMs == 3000
    ensures r.retry && r.retryCount == 3
  {
    Options(DefaultBatchSize, DefaultPeriodMs, true, DefaultRetryCount)
  }

  /** `Array.MaxLength`: the most elements a .NET array can hold. A chunk
      list created with a larger capacity cannot allocate its array. */
  const MaxArrayLength: int := 0x7FFF_FFC7

  /** A batch size every flush can work with: at least one item per round,
      and a capacity the chunk list can allocate. */
  predicate ValidBatchSize(n: int)
  {
    1 <= n <= MaxArrayLength
  }

  /** One call on `PeriodicalBatchOptionsBuilder`. */
  datatype Step =
    | WithBatchSize(batchSize: int)
    | WithPeriod(periodMs: int)
    | WithoutRetry
    | WithRetryCount(retryCount: int)

  /** The effect of one builder call on the options it wraps: the call's
      own field is assigned without validation and every other field is kept. */
  function Apply(o: Options, step: Step): (r: Options)
    ensures !step.WithBatchSize? ==> r.batchSize == o.batchSize
    ensures !step.WithPeriod? ==> r.periodMs == o.periodMs
    ensures !step.WithoutRetry? ==> r.retry == o.retry
    ensures !step.WithRetryCount? ==> r.retryCount == o.retryCount
    ensures step.WithBatchSize? ==> r.batchSize == step.batchSize
    ensures step.WithPeriod? ==> r.periodMs == step.periodMs
    ensures step.WithoutRetry? ==> !r.retry
    ensures step.WithRetryCount? ==> r.retryCount == step.retryCount
  {
    match step
    case WithBatchSize(n) => o.(batchSize := n)
    case WithPeriod(p) => o.(periodMs := p)
    case WithoutRetry => o.(retry := false)
    case WithRetryCount(n) => o.(retryCount := n)
  }

  /** Builder calls applied in order to `o`. No call turns retry back on,
      and a field no call names keeps its value. */
  function Configure(o: Options, steps: seq<Step>): (r: Options)
    ensures |steps| == 0 ==> r == o
    ensures r.retry ==> o.retry
    ensures (forall i :: 0 <= i < |steps| ==> !steps[i].WithBatchSize?) ==> r.batchSize == o.batchSize
    ensures (forall i :: 0 <= i < |steps| ==> !steps[i].WithPeriod?) ==> r.periodMs == o.periodMs
    ensures (forall i :: 0 <= i < |steps| ==> !steps[i].WithoutRetry?) ==> r.retry == o.retry
    ensures (forall i :: 0 <= i < |steps| ==> !steps[i].WithRetryCount?) ==> r.retryCount == o.retryCount
    decreases |steps|
  {
    if |steps| == 0 then o
    else
      assert forall i :: 0 <= i < |steps[1..]| ==> steps[1..][i] == steps[i + 1];
      Configure(Apply(o, steps[0]), steps[1..])
  }

  /** `new PeriodicalBatchOptionsBuilder()`, the caller's configuration
      action, then `Build()`: with no calls the defaults come back. */
  function Build(steps: seq<Step>): (r: Options)
    ensures |steps| == 0 ==> r == Empty()
    ensures (forall i :: 0 <= i < |steps| ==> !steps[i].WithBatchSize?) ==> r.batchSize == DefaultBatchSize
    ensures (forall i :: 0 <= i < |steps| ==> !steps[i].WithPeriod?) ==> r.periodMs == DefaultPeriodMs
    ensures (forall i :: 0 <= i < |steps| ==> !steps[i].WithoutRetry?) ==> r.retry
    ensures (forall i :: 0 <= i < |steps| ==> !steps[i].WithRetryCount?) ==> r.retryCount == DefaultRetryCount
  {
    Configure(Empty(), steps)
  }

  /** The value given by the last `WithBatchSize` call, or `d` when there is none. */
  function LastBatchSize(steps: seq<Step>, d: int): int
  {
    if |steps| == 0 then d
    else if steps[|steps| - 1].WithBatchSize? then steps[|steps| - 1].batchSize
    else LastBatchSize(steps[..|steps| - 1], d)
  }

  /** The value given by the last `WithPeriod` call, or `d` when there is none. */
  function LastPeriod(steps: seq<Step>, d: int): int
  {
    if |steps| == 0 then d
    else if steps[|steps| - 1].WithPeriod? then steps[|steps| - 1].periodMs
    else LastPeriod(steps[..|steps| - 1], d)
  }

  /** The value given by the last `WithRetryCount` call, or `d` when there is none. */
  function LastRetryCount(steps: seq<Step>, d: int): int
  {
    if |steps| == 0 then d
    else if steps[|steps| - 1].WithRetryCount? then steps[|steps| - 1].retryCount
    else LastRetryCount(steps[..|steps| - 1], d)
  }

  /** Whether any call is `WithoutRetry`. */
  predicate AnyWithoutRetry(steps: seq<Step>)
  {
    exists i :: 0 <= i < |steps| && steps[i].WithoutRetry?
  }

  lemma {:induction false} ConfigureSnoc(o: Options, steps: seq<Step>, step: Step)
    ensures Configure(o, steps + [step]) == Apply(Configure(o, steps), step)
    decreases |steps|
  {
    if |steps| > 0 {
      assert (steps + [step])[1..] == steps[1..] + [step];
      ConfigureSnoc(Apply(o, steps[0]), steps[1..], step);
    }
  }

  /** Each field of the built options is decided by the builder calls on
      that field alone: the last such call wins, and a field no call touches
      keeps its default. */
  lemma {:induction false} BuildFields(steps: seq<Step>)
    ensures Build(steps).batchSize == LastBatchSize(steps, DefaultBatchSize)
    ensures Build(steps).periodMs == LastPeriod(steps, DefaultPeriodMs)
    ensures Build(steps).retry == !AnyWithoutRetry(steps)
    ensures Build(steps).retryCount == LastRetryCount(steps, DefaultRetryCount)
    decreases |steps|
  {
    if |steps| > 0 {
      var init := steps[..|steps| - 1];
      var step := steps[|steps| - 1];
      assert steps == init + [step];
      BuildFields(init);
      ConfigureSnoc(Empty(), init, step);
      if step.WithoutRetry? {
        assert steps[|steps| - 1].WithoutRetry?;
      } else {
        assert AnyWithoutRetry(steps) <==> AnyWithoutRetry(init) by {
          if AnyWithoutRetry(steps) {
            var i :| 0 <= i < |steps| && steps[i].WithoutRetry?;
            assert init[i].WithoutRetry?;
          }
          if AnyWithoutRetry(init) {
            var i :| 0 <= i < |init| && init[i].WithoutRetry?;
            assert steps[i].WithoutRetry?;
          }
        }
      }
    }
  }

  /** Corrected builder call: a batch size below one or above the array
      limit is rejected instead of stored, since with such a size a flush
      either spins without dispatching or throws without dispatching
      anything. */
  function ApplyChecked(o: Options, step: Step): (r: Result<Options, Exception>)
    ensures r.Failure? <==> step.WithBatchSize? && (step.batchSize < 1 || step.batchSize > MaxArrayLength)
    ensures r.Success? ==> r.value == Apply(o, step)
  {
    if step.WithBatchSize? && !ValidBatchSize(step.batchSize) then Failure(ArgumentOutOfRangeException)
    else Success(Apply(o, step))
  }

  /** No call sets a batch size below one or above the array limit. */
  predicate ValidSteps(steps: seq<Step>)
  {
    forall i :: 0 <= i < |steps| && steps[i].WithBatchSize? ==> ValidBatchSize(steps[i].batchSize)
  }

  /** Corrected builder calls applied in order; the first rejected call stops the build. */
  function ConfigureChecked(o: Options, steps: seq<Step>): (r: Result<Options, Exception>)
    requires ValidBatchSize(o.batchSize)
    ensures r.Success? <==> ValidSteps(steps)
    ensures r.Failure? ==> r.error == ArgumentOutOfRangeException
    ensures r.Success? ==> ValidBatchSize(r.value.batchSize)
    ensures r.Success? ==> r.value == Configure(o, steps)
    decreases |steps|
  {
    if |steps| == 0 then Success(o)
    else
      assert ValidSteps(steps) <==> ValidSteps([steps[0]]) && ValidSteps(steps[1..]) by {
        if ValidSteps([steps[0]]) && ValidSteps(steps[1..]) {
          forall i | 0 <= i < |steps| && steps[i].WithBatchSize?
            ensures ValidBatchSize(steps[i].batchSize)
          {
            if i > 0 {
              assert steps[1..][i - 1] == steps[i];
            } else {
              assert [steps[0]][0] == steps[i];
            }
          }
        }
        if ValidSteps(steps) {
          assert [steps[0]][0] == steps[0];
          forall i | 0 <= i < |steps[1..]| && steps[1..][i].WithBatchSize?
            ensures ValidBatchSize(steps[1..][i].batchSize)
          {
            assert steps[1..][i] == steps[i + 1];
          }
        }
      }
      match ApplyChecked(o, steps[0])
      case Failure(e) => Failure(e)
      case Success(o') => ConfigureChecked(o', steps[1..])
  }

  /** The corrected `Build()`: it succeeds exactly when no call sets a batch
      size below one or above the array limit, and then agrees with `Build()`. */
  function BuildChecked(steps: seq<Step>): (r: Result<Options, Exception>)
    ensures r.Success? <==> ValidSteps(steps)
    ensures r.Failure? ==> r.error == ArgumentOutOfRangeException
    ensures r.Success? ==> 1 <= r.value.batchSize <= MaxArrayLength && r.value == Build(steps)
  {
    ConfigureChecked(Empty(), steps)
  }

  /** 2 to the power `n`. */
  function Pow2(n: nat): (r: nat)
    ensures r >= 1
  {
    if n == 0 then 1 else 2 * Pow2(n - 1)
  }

  /** The retry policy's sleep before retry number `attempt` (counted from 1):
      0.5 + 2^(attempt - 1) seconds, in milliseconds. */
  function RetryDelayMs(attempt: int): (r: nat)
    requires attempt >= 1
    ensures r >= 1500
    ensures attempt == 1 ==> r == 1500
  {
    500 + 1000 * Pow2(attempt - 1)
  }

  /** The backoff part of the delay doubles from one retry to the next. */
  lemma RetryDelayDoubles(attempt: int)
    requires attempt >= 1
    ensures RetryDelayMs(attempt + 1) - 500 == 2 * (RetryDelayMs(attempt) - 500)
    ensures RetryDelayMs(1) == 1500
  {
  }

  /** Later retries wait strictly longer. */
  lemma {:induction false} RetryDelaysIncrease(m: int, n: int)
    requires 1 <= m < n
    ensures RetryDelayMs(m) < RetryDelayMs(n)
    decreases n - m
  {
    if m + 1 < n {
      RetryDelaysIncrease(m + 1, n);
    }
  }

  /** The sleeps before retries 1 .. count, in order. */
  function RetrySchedule(count: nat): (delays: seq<nat>)
    ensures |delays| == count
    ensures forall k :: 0 <= k < count ==> delays[k] == RetryDelayMs(k + 1)
    ensures forall k, l :: 0 <= k < l < count ==> delays[k] < delays[l]
  {
    var delays := seq(count, k requires 0 <= k => RetryDelayMs(k + 1));
    assert forall k, l :: 0 <= k < l < count ==> delays[k] < delays[l] by {
      forall k, l | 0 <= k < l < count
        ensures delays[k] < delays[l]
      {
        RetryDelaysIncrease(k + 1, l + 1);
      }
    }
    delays
  }

  /** How one chunk is handed to the handler. */
  datatype Invocation =
    | Direct                          // a single call, no retry
    | Retried(delaysMs: seq<nat>)     // wrapped in the wait-and-retry policy
    | PolicyRejected                  // the policy refuses a negative retry count

  /** `HandleBatchInner`: the retry policy wraps the handler only when `Retry` is set. */
  function HandlerInvocation(o: Options): (r: Invocation)
    ensures !o.retry <==> r.Direct?
    ensures r.Retried? ==> o.retryCount >= 0 && |r.delaysMs| == o.retryCount
    ensures r.Retried? ==> forall k :: 0 <= k < |r.delaysMs| ==> r.delaysMs[k] == RetryDelayMs(k + 1)
    ensures r.PolicyRejected? <==> o.retry && o.retryCount < 0
  {
    if !o.retry then Direct
    else if o.retryCount < 0 then PolicyRejected
    else Retried(RetrySchedule(o.retryCount))
  }
}

=== FILE: cloud_apps.dfy ===
/** The pure string logic of the two host bootstraps, `CloudWorkerApp` and
    `CloudWebApp`: deriving the application name from a namespace, the
    environment default and production test, the assembly-name filters,
    and the build timestamp carried in an informational version. */
module CloudApps {
  import opened Wrappers
  import Text

  /** `GetApplicationName(Type)`, given the type's non-null namespace: the
      third dot-separated part of a four-part namespace, else the last part. */
  function NameFromNamespace(ns: string): (name: string)
    ensures '.' !in name
    ensures |Text.Split(ns, '.')| == 4 ==> name == Text.Split(ns, '.')[2]
    ensures |Text.Split(ns, '.')| != 4 ==> name == Text.Last(Text.Split(ns, '.'))
  {
    var parts := Text.Split(ns, '.');
    if |parts| == 4 then parts[2] else Text.Last(parts)
  }

  /** A namespace without a dot names the application itself. */
  lemma DotlessNamespaceIsName(ns: string)
    requires '.' !in ns
    ensures NameFromNamespace(ns) == ns
  {
    Text.SplitJoin([ns], '.');
  }

  /** For a namespace built from dot-free parts: four parts give the third,
      any other count gives the last. */
  lemma NameFromParts(parts: seq<string>)
    requires |parts| >= 1
    requires forall i :: 0 <= i < |parts| ==> '.' !in parts[i]
    ensures |parts| == 4 ==> NameFromNamespace(Text.Join(parts, '.')) == parts[2]
    ensures |parts| != 4 ==> NameFromNamespace(Text.Join(parts, '.')) == Text.Last(parts)
  {
    Text.SplitJoin(parts, '.');
  }

  /** `GetApplicationName(Type)`: reading `Namespace.Split` on a type in the
      global namespace (a null namespace) throws. */
  function GetApplicationName(ns: Option<string>): (r: Result<string, Exception>)
    ensures r.Failure? <==> ns.None?
    ensures r.Failure? ==> r.error == NullReferenceException
    ensures r.Success? ==> r.value == NameFromNamespace(ns.value) && '.' !in r.value
  {
    match ns
    case None => Failure(NullReferenceException)
    case Some(n) => Success(NameFromNamespace(n))
  }

  /** `string.IsNullOrEmpty`. */
  predicate IsNullOrEmpty(s: Option<string>)
  {
    s.None? || |s.value| == 0
  }

  /** The name selection in `Build`: a non-empty explicit name is used as
      given, and only otherwise is the base type's namespace consulted. */
  function SelectApplicationName(explicit: Option<string>, ns: Option<string>): (r: Result<string, Exception>)
    ensures !IsNullOrEmpty(explicit) ==> r == Success(explicit.value)
    ensures IsNullOrEmpty(explicit) ==> r == GetApplicationName(ns)
    ensures r.Success? ==> |r.value| > 0 || IsNullOrEmpty(explicit)
  {
    if IsNullOrEmpty(explicit) then GetApplicationName(ns) else Success(explicit.value)
  }

  const DefaultEnvironment: string := "Production"

  /** `GetEnvironment`, given the value of `DOTNET_ENVIRONMENT`: unset or
      empty means production; anything else is kept verbatim. */
  function GetEnvironment(variable: Option<string>): (env: string)
    ensures |env| > 0
    ensures IsNullOrEmpty(variable) ==> env == DefaultEnvironment
    ensures !IsNullOrEmpty(variable) ==> env == variable.value
  {
    if IsNullOrEmpty(variable) then DefaultEnvironment else variable.value
  }

  /** Feeding the environment back in changes nothing. */
  lemma GetEnvironmentIdempotent(variable: Option<string>)
    ensures GetEnvironment(Some(GetEnvironment(variable))) == GetEnvironment(variable)
  {
  }

  /** A character matches a lower-case ASCII letter ignoring case exactly
      when lower-casing it gives that letter. */
  lemma FoldMatchesLower(c: char, d: char)
    requires 'a' <= d <= 'z'
    ensures Text.UpperAscii(c) == Text.UpperAscii(d) <==> Text.LowerAscii(c) == d
  {
  }

  /** The `IsProduction` flag of `GetApplicationInfo`: the environment equals
      "production" ignoring case, which is exactly when its lower-cased form
      is "production". */
  function IsProduction(env: string): (r: bool)
    ensures r <==> Text.LowerAsciiString(env) == "production"
  {
    var target := "production";
    assert Text.EqualsIgnoreCase(env, target) <==> Text.LowerAsciiString(env) == target by {
      var lowered := Text.LowerAsciiString(env);
      if |env| == |target| {
        forall i | 0 <= i < |env|
          ensures Text.UpperAscii(env[i]) == Text.UpperAscii(target[i]) <==> lowered[i] == target[i]
        {
          FoldMatchesLower(env[i], target[i]);
        }
      }
    }
    Text.EqualsIgnoreCase(env, target)
  }

  /** The default environment is production; the usual others are not. */
  lemma ProductionExamples()
    ensures IsProduction(GetEnvironment(None))
    ensures !IsProduction("Development") && !IsProduction("Staging")
  {
    assert Text.UpperAscii("Development"[0]) != Text.UpperAscii("production"[0]);
    assert Text.UpperAscii("Staging"[0]) != Text.UpperAscii("production"[0]);
  }

  /** `CustomsApplicationInfo` as `GetApplicationInfo` fills it. */
  datatype ApplicationInfo = ApplicationInfo(application: string, environment: string, isProduction: bool)

  /** `CloudWorkerApp.GetApplicationInfo`. */
  function GetApplicationInfo(env: string, applicationName: string): (info: ApplicationInfo)
    ensures info.application == applicationName && info.environment == env
    ensures info.isProduction <==> Text.LowerAsciiString(env) == "production"
  {
    ApplicationInfo(applicationName, env, IsProduction(env))
  }

  /** The identity a worker host is built with: the selected name, then the
      environment, then the info derived from both. */
  function WorkerIdentity(explicit: Option<string>, ns: Option<string>, variable: Option<string>)
    : (r: Result<ApplicationInfo, Exception>)
    ensures r.Failure? <==> IsNullOrEmpty(explicit) && ns.None?
    ensures r.Success? ==> r.value.environment == GetEnvironment(variable)
    ensures r.Success? && IsNullOrEmpty(variable) ==> r.value.isProduction
    ensures r.Success? && !IsNullOrEmpty(explicit) ==> r.value.application == explicit.value
  {
    match SelectApplicationName(explicit, ns)
    case Failure(e) => Failure(e)
    case Success(name) =>
      var env := GetEnvironment(variable);
      ProductionExamples();
      Success(GetApplicationInfo(env, name))
  }

  /** A loaded assembly, known here by its (possibly null) full name. */
  datatype Assembly = Assembly(fullName: Option<string>)

  const WorkerMarker: string := ".Worker, "
  const BusinessLogicMarker: string := ".BL, "

  /** Whether the assembly filter keeps `a`: a non-null full name containing `marker`. */
  predicate Selected(a: Assembly, marker: string)
  {
    a.fullName.Some? && Text.Contains(a.fullName.value, marker)
  }

  /** The `Where(...).ToList()` of the assembly fill: the loaded assemblies
      whose full name contains `marker`, in load order. */
  function FilterAssemblies(loaded: seq<Assembly>, marker: string): (r: seq<Assembly>)
    ensures forall a :: a in r <==> a in loaded && Selected(a, marker)
    ensures |r| <= |loaded|
  {
    if |loaded| == 0 then []
    else (if Selected(loaded[0], marker) then [loaded[0]] else []) + FilterAssemblies(loaded[1..], marker)
  }

  /** The filter keeps load order: filtering two batches of assemblies is
      filtering each and concatenating. */
  lemma {:induction false} FilterAppend(a: seq<Assembly>, b: seq<Assembly>, marker: string)
    ensures FilterAssemblies(a + b, marker) == FilterAssemblies(a, marker) + FilterAssemblies(b, marker)
    decreases |a|
  {
    if |a| == 0 {
      assert a + b == b;
    } else {
      assert (a + b)[1..] == a[1..] + b;
      FilterAppend(a[1..], b, marker);
    }
  }

  /** The assembly lists the app builder collects. */
  datatype AssemblyLists = AssemblyLists(autoMapper: seq<Assembly>, fluentValidation: seq<Assembly>)

  /** `FillWorkerAssemblies` / `FillBLAssemblies`: the selected assemblies
      are appended, in order, to both lists. */
  function FillAssemblies(lists: AssemblyLists, loaded: seq<Assembly>, marker: string): (r: AssemblyLists)
    ensures |r.autoMapper| >= |lists.autoMapper| && |r.fluentValidation| >= |lists.fluentValidation|
    ensures r.autoMapper[..|lists.autoMapper|] == lists.autoMapper
    ensures r.fluentValidation[..|lists.fluentValidation|] == lists.fluentValidation
    ensures r.autoMapper[|lists.autoMapper|..] == r.fluentValidation[|lists.fluentValidation|..]
    ensures forall a :: a in r.autoMapper[|lists.autoMapper|..] <==> a in loaded && Selected(a, marker)
    ensures r.autoMapper[|lists.autoMapper|..] == FilterAssemblies(loaded, marker)
    ensures r.fluentValidation[|lists.fluentValidation|..] == FilterAssemblies(loaded, marker)
  {
    var chosen := FilterAssemblies(loaded, marker);
    var r := AssemblyLists(lists.autoMapper + chosen, lists.fluentValidation + chosen);
    assert r.autoMapper[|lists.autoMapper|..] == chosen;
    assert r.fluentValidation[|lists.fluentValidation|..] == chosen;
    r
  }

  const BuildVersionMetadataPrefix: string := "+build"

  /** The text `GetLinkerTime` hands to the date parser: what follows the
      first "+build" in the informational version, but only when that
      occurrence is not at the very start. */
  function BuildTimestampText(version: string): (r: Option<string>)
    ensures r.Some? ==>
      var i := |version| - |r.value| - |BuildVersionMetadataPrefix|;
      && 0 < i
      && Text.OccursAt(version, BuildVersionMetadataPrefix, i)
      && (forall k :: 0 <= k < i ==> !Text.OccursAt(version, BuildVersionMetadataPrefix, k))
      && r.value == version[i + |BuildVersionMetadataPrefix|..]
    ensures r.None? <==>
      (Text.OccursAt(version, BuildVersionMetadataPrefix, 0)
       || forall k :: 0 <= k ==> !Text.OccursAt(version, BuildVersionMetadataPrefix, k))
  {
    var index := Text.IndexOf(version, BuildVersionMetadataPrefix);
    if index > 0 then Some(version[index + |BuildVersionMetadataPrefix|..]) else None
  }

  /** `GetLinkerTime`: no attribute or no usable marker gives the default
      date (tick 0); otherwise the timestamp text is parsed by `parse`, a
      failed parse throwing. */
  function GetLinkerTime(informationalVersion: Option<string>, parse: string -> Option<nat>)
    : (r: Result<nat, Exception>)
    ensures informationalVersion.None? ==> r == Success(0)
    ensures informationalVersion.Some? && BuildTimestampText(informationalVersion.value).None? ==> r == Success(0)
    ensures r.Failure? ==> r.error == FormatException
    ensures informationalVersion.Some? && BuildTimestampText(informationalVersion.value).Some? ==>
      var parsed := parse(BuildTimestampText(informationalVersion.value).value);
      && (r.Failure? <==> parsed.None?)
      && (r.Success? ==> r.value == parsed.value)
  {
    match informationalVersion
    case None => Success(0)
    case Some(v) =>
      match BuildTimestampText(v)
      case None => Success(0)
      case Some(text) =>
        match parse(text)
        case None => Failure(FormatException)
        case Some(date) => Success(date)
  }

  const VersionUndefined: string := "version undefined"

  /** The `/version` text of `MapActions`: "version undefined" for the
      minimum date, else the date as formatted by `format`. */
  function VersionText(linkerTicks: nat, format: nat -> string): (r: string)
    requires forall t :: format(t) != VersionUndefined
    ensures r == VersionUndefined <==> linkerTicks == 0
    ensures linkerTicks != 0 ==> r == format(linkerTicks)
  {
    if linkerTicks == 0 then VersionUndefined else format(linkerTicks)
  }

  /** An assembly without a usable "+build" marker reports "version undefined". */
  lemma UnmarkedVersionIsUndefined(version: string, parse: string -> Option<nat>, format: nat -> string)
    requires forall t :: format(t) != VersionUndefined
    requires !Text.Contains(version, BuildVersionMetadataPrefix)
    ensures GetLinkerTime(Some(version), parse) == Success(0)
    ensures VersionText(GetLinkerTime(Some(version), parse).value, format) == VersionUndefined
  {
  }
}

=== FILE: date_overlap.dfy ===
/** `DateTimeUtil.IsOverlap`, `OverlapPeriod` and `OverlapResult`: which
    pairs in a list of periods overlap. */
module DateTimeOverlap {
  import opened Wrappers
  import opened DateTimePeriods

  /** `OverlapPeriod`: the two periods of an overlapping pair, in list order. */
  datatype OverlapPeriod = OverlapPeriod(period1: Period, period2: Period)

  /** `OverlapResult`; `overlapPeriods` is `None` for the default (all-null) value. */
  datatype OverlapResult = OverlapResult(hasOverlaps: bool, overlapPeriods: Option<seq<OverlapPeriod>>)

  /** `new OverlapResult(overlapPeriods)`: a null sequence throws; otherwise
      `HasOverlaps` says whether it is non-empty and the sequence is kept as is. */
  function MakeResult(overlapPeriods: Option<seq<OverlapPeriod>>): (r: Result<OverlapResult, Exception>)
    ensures r.Failure? <==> overlapPeriods.None?
    ensures r.Failure? ==> r.error == ArgumentNullException
    ensures r.Success? ==> r.value.overlapPeriods == overlapPeriods
    ensures r.Success? ==> (r.value.hasOverlaps <==> |overlapPeriods.value| > 0)
  {
    match overlapPeriods
    case None => Failure(ArgumentNullException)
    case Some(list) => Success(OverlapResult(|list| > 0, overlapPeriods))
  }

  /** `OverlapResult.Default`: no overlaps, and a null sequence. */
  function Default(): (r: OverlapResult)
    ensures !r.hasOverlaps && r.overlapPeriods.None?
  {
    OverlapResult(false, None)
  }

  /** `Between(DateTime, DateTimePeriod)`: strictly inside the period, so
      never at either end and never inside a period that does not run forward. */
  function DateBetween(date: DateTime, p: Period): (r: bool)
    ensures r ==> p.from < p.to
    ensures date == p.from || date == p.to ==> !r
  {
    date > p.from && date < p.to
  }

  /** `Between(DateTimePeriod, DateTimePeriod)`: an end of `p1` lies strictly
      inside `p2`. No period lies between itself, which is why the pairwise
      test adds an equality check. */
  function PeriodBetween(p1: Period, p2: Period): (r: bool)
    ensures r ==> p2.from < p2.to
    ensures Eq(p1, p2) ==> !r
  {
    DateBetween(p1.from, p2) || DateBetween(p1.to, p2)
  }

  /** The pairwise `IsOverlap`: equal periods overlap, and distinct forward
      periods that are disjoint or only touch do not. */
  function Overlaps(p1: Period, p2: Period): (r: bool)
    ensures Eq(p1, p2) ==> r
    ensures p1.from <= p1.to && p2.from <= p2.to && !Eq(p1, p2) && (p1.to <= p2.from || p2.to <= p1.from) ==> !r
  {
    PeriodBetween(p1, p2) || PeriodBetween(p2, p1) || Eq(p1, p2)
  }

  /** The pairwise test does not depend on argument order, and a period overlaps itself. */
  lemma OverlapsSymmetric(p1: Period, p2: Period)
    ensures Overlaps(p1, p2) <==> Overlaps(p2, p1)
    ensures Overlaps(p1, p1)
  {
  }

  /** Periods that only touch, one ending where the other starts, do not
      overlap, because containment is strict. */
  lemma TouchingDoesNotOverlap(a: Period, b: Period)
    requires a.from <= a.to == b.from <= b.to
    requires a != b
    ensures !Overlaps(a, b)
  {
  }

  /** For periods that run forward, the test agrees with the usual
      intersection of open intervals: the later start precedes the earlier end. */
  lemma OverlapsIffIntersect(a: Period, b: Period)
    requires a.from < a.to && b.from < b.to
    ensures Overlaps(a, b) <==>
      (if a.from < b.from then b.from else a.from) < (if a.to < b.to then a.to else b.to)
  {
  }

  /** The indices (i, j), j from `j` on, that the inner loop reports for row `i`. */
  function Row(ps: seq<Period>, i: nat, j: nat): (r: seq<(nat, nat)>)
    requires i < j <= |ps|
    ensures |r| <= |ps| - j
    ensures forall k :: 0 <= k < |r| ==>
      r[k].0 == i && j <= r[k].1 < |ps|
    decreases |ps| - j
  {
    if j == |ps| then []
    else (if Overlaps(ps[i], ps[j]) then [(i, j)] else []) + Row(ps, i, j + 1)
  }

  /** Lexicographic order on index pairs. */
  predicate LexLess(x: (nat, nat), y: (nat, nat))
  {
    x.0 < y.0 || (x.0 == y.0 && x.1 < y.1)
  }

  /** The index pairs both loops report from row `i` on. */
  function Scan(ps: seq<Period>, i: nat): (r: seq<(nat, nat)>)
    requires i <= |ps|
    ensures forall k :: 0 <= k < |r| ==> i <= r[k].0 < r[k].1 < |ps|
    decreases |ps| - i
  {
    if i == |ps| then [] else Row(ps, i, i + 1) + Scan(ps, i + 1)
  }

  /** Rows `i` onwards report at most one pair per two-element subset. */
  lemma {:induction false} ScanCount(ps: seq<Period>, i: nat)
    requires i <= |ps|
    ensures 2 * |Scan(ps, i)| <= (|ps| - i) * (|ps| - i - 1)
    decreases |ps| - i
  {
    if i < |ps| {
      ScanCount(ps, i + 1);
      var m := |ps| - i;
      assert |Scan(ps, i)| == |Row(ps, i, i + 1)| + |Scan(ps, i + 1)|;
      assert m * (m - 1) == (m - 1) * (m - 2) + 2 * (m - 1);
    }
  }

  /** The overlapping index pairs (i, j), i < j, in the order the loops find them. */
  function OverlapIndices(ps: seq<Period>): seq<(nat, nat)>
  {
    Scan(ps, 0)
  }

  /** Row `i` reports only overlapping pairs, in increasing `j`. */
  lemma {:induction false} RowSound(ps: seq<Period>, i: nat, j: nat)
    requires i < j <= |ps|
    ensures forall k :: 0 <= k < |Row(ps, i, j)| ==> Overlaps(ps[i], ps[Row(ps, i, j)[k].1])
    ensures forall k, l :: 0 <= k < l < |Row(ps, i, j)| ==> Row(ps, i, j)[k].1 < Row(ps, i, j)[l].1
    decreases |ps| - j
  {
    if j < |ps| {
      RowSound(ps, i, j + 1);
    }
  }

  /** From row `i` on, only overlapping pairs are reported, in lexicographic order. */
  lemma {:induction false} ScanSound(ps: seq<Period>, i: nat)
    requires i <= |ps|
    ensures forall k :: 0 <= k < |Scan(ps, i)| ==> Overlaps(ps[Scan(ps, i)[k].0], ps[Scan(ps, i)[k].1])
    ensures forall k, l :: 0 <= k < l < |Scan(ps, i)| ==> LexLess(Scan(ps, i)[k], Scan(ps, i)[l])
    decreases |ps| - i
  {
    if i < |ps| {
      RowSound(ps, i, i + 1);
      ScanSound(ps, i + 1);
      var row := Row(ps, i, i + 1);
      var rest := Scan(ps, i + 1);
      assert Scan(ps, i) == row + rest;
    }
  }

  /** Every overlapping pair is reported. */
  lemma {:induction false} RowComplete(ps: seq<Period>, i: nat, j: nat, x: nat)
    requires i < j <= x < |ps| && Overlaps(ps[i], ps[x])
    ensures (i, x) in Row(ps, i, j)
    decreases |ps| - j
  {
    if j < x {
      RowComplete(ps, i, j + 1, x);
    }
  }

  lemma {:induction false} ScanComplete(ps: seq<Period>, i: nat, x: nat, y: nat)
    requires i <= x < y < |ps| && Overlaps(ps[x], ps[y])
    ensures (x, y) in Scan(ps, i)
    decreases |ps| - i
  {
    assert Scan(ps, i) == Row(ps, i, i + 1) + Scan(ps, i + 1);
    if i == x {
      RowComplete(ps, x, x + 1, y);
    } else {
      ScanComplete(ps, i + 1, x, y);
    }
  }

  /** The reported pairs are exactly the overlapping (i, j) with i < j, each
      once, in lexicographic order, and there are at most n(n-1)/2 of them. */
  lemma OverlapIndicesExact(ps: seq<Period>)
    ensures forall i: nat, j: nat :: (i, j) in OverlapIndices(ps) <==>
      i < j < |ps| && Overlaps(ps[i], ps[j])
    ensures forall k, l :: 0 <= k < l < |OverlapIndices(ps)| ==>
      LexLess(OverlapIndices(ps)[k], OverlapIndices(ps)[l])
    ensures 2 * |OverlapIndices(ps)| <= |ps| * (|ps| - 1)
  {
    forall i: nat, j: nat | i < j < |ps| && Overlaps(ps[i], ps[j])
      ensures (i, j) in OverlapIndices(ps)
    {
      ScanComplete(ps, 0, i, j);
    }
    ScanSound(ps, 0);
    ScanCount(ps, 0);
  }

  /** Some pair overlaps exactly when some pair is reported. */
  lemma SomeOverlapIffReported(ps: seq<Period>)
    ensures |OverlapIndices(ps)| > 0 <==>
      exists i: nat, j: nat :: i < j < |ps| && Overlaps(ps[i], ps[j])
  {
    OverlapIndicesExact(ps);
    ScanSound(ps, 0);
    if exists i: nat, j: nat :: i < j < |ps| && Overlaps(ps[i], ps[j]) {
      var i: nat, j: nat :| i < j < |ps| && Overlaps(ps[i], ps[j]);
      assert (i, j) in OverlapIndices(ps);
    }
    if |OverlapIndices(ps)| > 0 {
      var x := OverlapIndices(ps)[0];
      assert x.0 < x.1 < |ps| && Overlaps(ps[x.0], ps[x.1]);
    }
  }

  /** The `OverlapPeriod` for each index pair. */
  function Pairs(ps: seq<Period>, idx: seq<(nat, nat)>): seq<OverlapPeriod>
    requires forall k :: 0 <= k < |idx| ==> idx[k].0 < |ps| && idx[k].1 < |ps|
  {
    seq(|idx|, k requires 0 <= k < |idx| => OverlapPeriod(ps[idx[k].0], ps[idx[k].1]))
  }

  lemma PairsAppend(ps: seq<Period>, a: seq<(nat, nat)>, b: seq<(nat, nat)>)
    requires forall k :: 0 <= k < |a| ==> a[k].0 < |ps| && a[k].1 < |ps|
    requires forall k :: 0 <= k < |b| ==> b[k].0 < |ps| && b[k].1 < |ps|
    ensures Pairs(ps, a + b) == Pairs(ps, a) + Pairs(ps, b)
  {
  }

  /** The `OverlapPeriod`s the inner loop has collected for row `i` once
      it reaches column `j`. */
  function RowPrefix(ps: seq<Period>, i: nat, j: nat): seq<OverlapPeriod>
    requires i < j <= |ps|
    decreases j
  {
    if j == i + 1 then []
    else
      RowPrefix(ps, i, j - 1) + Cell(ps, i, j - 1)
  }

  /** The `OverlapPeriod` the inner loop appends at column `k`, if any. */
  function Cell(ps: seq<Period>, i: nat, k: nat): seq<OverlapPeriod>
    requires i < |ps| && k < |ps|
  {
    if Overlaps(ps[i], ps[k]) then [OverlapPeriod(ps[i], ps[k])] else []
  }

  /** Column `k`'s pair, if reported, comes before the rest of the row. */
  lemma RowPairsStep(ps: seq<Period>, i: nat, k: nat)
    requires i < k < |ps|
    ensures Pairs(ps, Row(ps, i, k)) == Cell(ps, i, k) + Pairs(ps, Row(ps, i, k + 1))
  {
    var head: seq<(nat, nat)> := if Overlaps(ps[i], ps[k]) then [(i, k)] else [];
    PairsAppend(ps, head, Row(ps, i, k + 1));
    assert Pairs(ps, head) == Cell(ps, i, k);
  }

  /** The `OverlapPeriod`s of row `i` from column `j` on, in column order. */
  function RowPeriods(ps: seq<Period>, i: nat, j: nat): seq<OverlapPeriod>
    requires i < j <= |ps|
    decreases |ps| - j
  {
    if j == |ps| then [] else Cell(ps, i, j) + RowPeriods(ps, i, j + 1)
  }

  /** They are the `OverlapPeriod`s of the index pairs `Row` reports. */
  lemma {:induction false} RowPeriodsArePairs(ps: seq<Period>, i: nat, j: nat)
    requires i < j <= |ps|
    ensures RowPeriods(ps, i, j) == Pairs(ps, Row(ps, i, j))
    decreases |ps| - j
  {
    if j < |ps| {
      RowPeriodsArePairs(ps, i, j + 1);
      RowPairsStep(ps, i, j);
      SameTail(RowPeriods(ps, i, j), Pairs(ps, Row(ps, i, j)), Cell(ps, i, j),
        RowPeriods(ps, i, j + 1), Pairs(ps, Row(ps, i, j + 1)));
    }
  }

  /** Equal tails after the same head make equal sequences. */
  lemma SameTail<T>(x: seq<T>, y: seq<T>, head: seq<T>, xs: seq<T>, ys: seq<T>)
    requires x == head + xs && y == head + ys && xs == ys
    ensures x == y
  {
  }

  /** Moving one element from the front of the rest to the end of the prefix. */
  lemma Regroup<T>(grown: seq<T>, before: seq<T>, cell: seq<T>, after: seq<T>, rest: seq<T>)
    requires grown == before + cell && rest == cell + after
    ensures grown + after == before + rest
  {
  }

  /** What the inner loop has collected by column `j`, followed by the rest
      of the row, is the whole row. */
  lemma {:induction false} RowPrefixThenRest(ps: seq<Period>, i: nat, j: nat)
    requires i < j <= |ps|
    ensures RowPrefix(ps, i, j) + RowPeriods(ps, i, j) == RowPeriods(ps, i, i + 1)
    decreases j
  {
    if j > i + 1 {
      var k := j - 1;
      RowPrefixThenRest(ps, i, k);
      Regroup(RowPrefix(ps, i, j), RowPrefix(ps, i, k), Cell(ps, i, k),
        RowPeriods(ps, i, j), RowPeriods(ps, i, k));
    }
  }

  /** One round of the outer loop: the pairs from row `i` on are row `i`'s
      followed by those from row `i + 1` on. */
  lemma ScanStep(ps: seq<Period>, i: nat)
    requires i < |ps|
    ensures Pairs(ps, Scan(ps, i)) == Pairs(ps, Row(ps, i, i + 1)) + Pairs(ps, Scan(ps, i + 1))
  {
    PairsAppend(ps, Row(ps, i, i + 1), Scan(ps, i + 1));
  }

  /** The inner loop of `IsOverlap(params DateTimePeriod[])` for row `i`:
      an `OverlapPeriod` for each later period that overlaps `ps[i]`. */
  method CollectRow(ps: seq<Period>, i: nat) returns (row: seq<OverlapPeriod>)
    requires i < |ps|
    ensures row == Pairs(ps, Row(ps, i, i + 1))
  {
    row := [];
    var j := i + 1;
    while j < |ps|
      invariant i + 1 <= j <= |ps|
      invariant row == RowPrefix(ps, i, j)
    {
      assert RowPrefix(ps, i, j + 1) == row + Cell(ps, i, j);
      if Overlaps(ps[i], ps[j]) {
        row := row + [OverlapPeriod(ps[i], ps[j])];
      }
      j := j + 1;
    }
    RowPrefixThenRest(ps, i, |ps|);
    RowPeriodsArePairs(ps, i, i + 1);
  }

  /** The nested loops of `IsOverlap(params DateTimePeriod[])`, collecting
      an `OverlapPeriod` for each overlapping pair. */
  method CollectOverlaps(ps: seq<Period>) returns (list: seq<OverlapPeriod>)
    ensures list == Pairs(ps, OverlapIndices(ps))
  {
    list := [];
    var i := 0;
    while i < |ps|
      invariant 0 <= i <= |ps|
      invariant list + Pairs(ps, Scan(ps, i)) == Pairs(ps, Scan(ps, 0))
    {
      var row := CollectRow(ps, i);
      ScanStep(ps, i);
      assert list + Pairs(ps, Scan(ps, i)) == (list + row) + Pairs(ps, Scan(ps, i + 1));
      list := list + row;
      i := i + 1;
    }
    assert Pairs(ps, Scan(ps, |ps|)) == [];
  }

  /** `IsOverlap(params DateTimePeriod[])`: a null array or fewer than two
      periods gives the default result; otherwise every overlapping pair. */
  function IsOverlap(periods: Option<seq<Period>>): (r: OverlapResult)
    ensures periods.None? || |periods.value| < 2 ==> r == Default()
    ensures periods.Some? && |periods.value| >= 2 ==>
      r.overlapPeriods == Some(Pairs(periods.value, OverlapIndices(periods.value)))
    ensures r.hasOverlaps <==> (periods.Some? &&
      exists i: nat, j: nat :: i < j < |periods.value| && Overlaps(periods.value[i], periods.value[j]))
  {
    match periods
    case None => Default()
    case Some(ps) =>
      if |ps| < 2 then Default()
      else
        var list := Pairs(ps, OverlapIndices(ps));
        SomeOverlapIffReported(ps);
        MakeResult(Some(list)).value
  }

  /** `IsOverlap(IEnumerable<DateTimePeriod>)`: `ToArray()` on a null
      sequence throws; otherwise the array overload's result. */
  function IsOverlapSequence(periods: Option<seq<Period>>): (r: Result<OverlapResult, Exception>)
    ensures periods.None? <==> r == Failure(ArgumentNullException)
    ensures periods.Some? ==> r == Success(IsOverlap(periods))
  {
    match periods
    case None => Failure(ArgumentNullException)
    case Some(ps) => Success(IsOverlap(Some(ps)))
  }
}

=== FILE: date_periods.dfy ===
/** `DateTimePeriod`: a pair of instants, each a .NET `DateTime` held as its
    tick count (100 ns units since 0001-01-01 00:00). */
module DateTimePeriods {
  import opened Wrappers
  import Text

  const TicksPerDay: int := 864_000_000_000
  /** `DateTime.MaxValue.Ticks`: the last tick of 9999-12-31. */
  const MaxTicks: int := 3_155_378_975_999_999_999
  /** `DateOnly.MaxValue.DayNumber`. */
  const MaxDayNumber: int := 3_652_058

  /** A `DateTime`; tick 0 is `DateTime.MinValue`. */
  type DateTime = t: int | 0 <= t <= MaxTicks
  /** A `DateOnly`, as its day number. */
  type DateOnly = d: int | 0 <= d <= MaxDayNumber
  /** A `TimeOnly`, as ticks since midnight. */
  type TimeOnly = t: int | 0 <= t < TicksPerDay

  datatype Period = Period(from: DateTime, to: DateTime)

  /** `new DateTimePeriod(DateTime, DateTime)`: both ends kept as given, in
      either order. */
  function FromDateTimes(from: DateTime, to: DateTime): (p: Period)
    ensures p.from == from && p.to == to
  {
    Period(from, to)
  }

  /** `new DateTimePeriod(DateOnly, DateOnly)`: each end at midnight of its date. */
  function FromDates(from: DateOnly, to: DateOnly): (p: Period)
    ensures p.from % TicksPerDay == 0 && p.to % TicksPerDay == 0
    ensures p.from / TicksPerDay == from && p.to / TicksPerDay == to
  {
    Period(from * TicksPerDay, to * TicksPerDay)
  }

  /** `DateTime.MinValue + span`: out of range spans throw. */
  function MinValuePlus(span: int): (r: Result<DateTime, Exception>)
    ensures r.Success? <==> 0 <= span <= MaxTicks
    ensures r.Success? ==> r.value == span
    ensures r.Failure? ==> r.error == ArgumentOutOfRangeException
  {
    if 0 <= span <= MaxTicks then Success(span) else Failure(ArgumentOutOfRangeException)
  }

  /** `new DateTimePeriod(TimeSpan, TimeSpan)`: each end is `DateTime.MinValue`
      plus its span, which throws when that leaves the `DateTime` range. */
  function FromTimeSpans(from: int, to: int): (r: Result<Period, Exception>)
    ensures r.Success? <==> 0 <= from <= MaxTicks && 0 <= to <= MaxTicks
    ensures r.Success? ==> r.value.from == from && r.value.to == to
  {
    match MinValuePlus(from)
    case Failure(e) => Failure(e)
    case Success(f) =>
      match MinValuePlus(to)
      case Failure(e) => Failure(e)
      case Success(t) => Success(Period(f, t))
  }

  /** `new DateTimePeriod(TimeOnly, TimeOnly)`: both ends on day 0 at the given times. */
  function FromTimes(from: TimeOnly, to: TimeOnly): (p: Period)
    ensures p.from / TicksPerDay == 0 && p.to / TicksPerDay == 0
    ensures p.from % TicksPerDay == from && p.to % TicksPerDay == to
    ensures FromTimeSpans(from, to) == Success(p)
  {
    Period(from, to)
  }

  /** The argument of `Equals(object)`: null, a value of another type, or a boxed period. */
  datatype Object = Null | OtherType | Boxed(period: Period)

  /** `DateTimePeriod.Equals(object)`: true exactly for a boxed period with
      the same two ends. */
  function Equals(p: Period, obj: Object): (r: bool)
    ensures r <==> obj == Boxed(p)
  {
    match obj
    case Null => false
    case OtherType => false
    case Boxed(q) => q.from == p.from && q.to == p.to
  }

  /** `operator ==`: structural equality of the two ends. */
  function Eq(left: Period, right: Period): (r: bool)
    ensures r <==> left == right
  {
    Equals(left, Boxed(right))
  }

  /** `operator !=`: some end differs. */
  function Neq(left: Period, right: Period): (r: bool)
    ensures r <==> left.from != right.from || left.to != right.to
  {
    !Eq(left, right)
  }

  /** Two periods are equal exactly when their ends are, and only a boxed
      period can equal a period; the relation is reflexive, symmetric and
      transitive, and `!=` is its negation. */
  lemma EqualityLaws(p: Period, q: Period, r: Period)
    ensures Eq(p, q) <==> p.from == q.from && p.to == q.to
    ensures Eq(p, q) <==> p == q
    ensures !Equals(p, Null) && !Equals(p, OtherType)
    ensures Eq(p, p)
    ensures Eq(p, q) ==> Eq(q, p)
    ensures Eq(p, q) && Eq(q, r) ==> Eq(p, r)
    ensures Neq(p, q) <==> !Eq(p, q)
  {
  }

  /** The string `GetHashCode` hashes: the two tick counts joined by a dot. */
  function HashKey(p: Period): string
  {
    Text.Decimal(p.from) + "." + Text.Decimal(p.to)
  }

  /** `GetHashCode`: the string hash of `HashKey`; the per-process string hash is `stringHash`. */
  function GetHashCode(p: Period, stringHash: string -> int): int
  {
    stringHash(HashKey(p))
  }

  /** Equal periods hash alike, whatever the string hash. */
  lemma HashAgreesWithEquals(p: Period, q: Period, stringHash: string -> int)
    requires Eq(p, q)
    ensures GetHashCode(p, stringHash) == GetHashCode(q, stringHash)
  {
  }

  /** The hashed key tells periods apart: distinct periods have distinct
      keys, so only the string hash itself can collide. */
  lemma HashKeyInjective(p: Period, q: Period)
    requires HashKey(p) == HashKey(q)
    ensures p == q
  {
    var pParts := [Text.Decimal(p.from), Text.Decimal(p.to)];
    var qParts := [Text.Decimal(q.from), Text.Decimal(q.to)];
    assert Text.Join(pParts, '.') == HashKey(p);
    assert Text.Join(qParts, '.') == HashKey(q);
    Text.SplitJoin(pParts, '.');
    Text.SplitJoin(qParts, '.');
    assert pParts == qParts;
    Text.DecimalRoundTrip(p.from);
    Text.DecimalRoundTrip(q.from);
    Text.DecimalRoundTrip(p.to);
    Text.DecimalRoundTrip(q.to);
  }
}

=== FILE: periodical_batch.dfy ===
/** `PeriodicalBatch<TMessage>` as a sequential state machine. Each
    operation of the background service is one atomic step over a
    `Batcher`: publishing into the channel, one turn of the drain loop,
    and one flush attempt (timer tick or size trigger). Chunks handed to
    the handler are recorded in `dispatched`, oldest first. */
module PeriodicalBatch {
  import opened Wrappers
  import opened BatchOptions

  /** The processor's state: the ingestion channel, the internal queue, the
      log of dispatched chunks, the `_locker` flag and whether the timer runs. */
  datatype Batcher<T> = Batcher(
    channel: seq<T>,
    queue: seq<T>,
    dispatched: seq<seq<T>>,
    locker: int,
    timerRunning: bool)

  /** `ExecuteAsync` before its drain loop: empty buffers, lock free, timer started. */
  function Start<T>(): Batcher<T>
  {
    Batcher([], [], [], 0, true)
  }

  /** The items of `chunks`, chunk after chunk. */
  function Flatten<T>(chunks: seq<seq<T>>): seq<T>
  {
    if |chunks| == 0 then [] else chunks[0] + Flatten(chunks[1..])
  }

  lemma {:induction false} FlattenAppend<T>(a: seq<seq<T>>, b: seq<seq<T>>)
    ensures Flatten(a + b) == Flatten(a) + Flatten(b)
    decreases |a|
  {
    if |a| > 0 {
      assert (a + b)[1..] == a[1..] + b;
      FlattenAppend(a[1..], b);
    } else {
      assert a + b == b;
    }
  }

  lemma FlattenSplit<T>(d: seq<seq<T>>, n: nat)
    requires n <= |d|
    ensures Flatten(d) == Flatten(d[..n]) + Flatten(d[n..])
  {
    assert d == d[..n] + d[n..];
    FlattenAppend(d[..n], d[n..]);
  }

  /** `PeriodicalBatchProducer.PublishAsync` on the unbounded channel: the
      message joins the back of the channel and nothing else changes. */
  function Publish<T>(s: Batcher<T>, message: T): (r: Batcher<T>)
    ensures r.channel == s.channel + [message]
    ensures r.queue == s.queue && r.dispatched == s.dispatched
    ensures r.locker == s.locker && r.timerRunning == s.timerRunning
  {
    s.(channel := s.channel + [message])
  }

  /** `CheckQueueSize`: a flush is scheduled once the queue holds a full
      batch, which with a batch size below one is always, even when empty. */
  function SizeTriggerFires<T>(o: Options, queue: seq<T>): (r: bool)
    ensures o.batchSize <= 0 ==> r
    ensures |queue| == 0 ==> (r <==> o.batchSize <= 0)
  {
    |queue| >= o.batchSize
  }

  /** One turn of the drain loop, and whether its size check schedules a flush. */
  datatype DrainOutcome<T> = DrainOutcome(state: Batcher<T>, flushScheduled: bool)

  /** One turn of the drain loop in `ExecuteAsync`: when the channel has a
      message it moves to the back of the queue and the size trigger is
      consulted; otherwise nothing happens. */
  function DrainStep<T>(o: Options, s: Batcher<T>): (r: DrainOutcome<T>)
    ensures |s.channel| == 0 ==> r.state == s && !r.flushScheduled
    ensures |s.channel| > 0 ==> r.state.queue == s.queue + [s.channel[0]]
    ensures r.state.queue + r.state.channel == s.queue + s.channel
    ensures r.state.dispatched == s.dispatched
    ensures r.state.locker == s.locker && r.state.timerRunning == s.timerRunning
    ensures r.flushScheduled <==> |s.channel| > 0 && |s.queue| + 1 >= o.batchSize
  {
    if |s.channel| == 0 then DrainOutcome(s, false)
    else
      var message := s.channel[0];
      var s' := s.(channel := s.channel[1..], queue := s.queue + [message]);
      assert s.channel == [message] + s'.channel;
      DrainOutcome(s', SizeTriggerFires(o, s'.queue))
  }

  /** What `new List<TMessage>(batchSize)` throws, if anything: a negative
      capacity is out of range, and one above the array limit cannot be
      allocated. */
  function CapacityError(batchSize: int): (r: Option<Exception>)
    ensures r.None? <==> 0 <= batchSize <= MaxArrayLength
    ensures batchSize < 0 ==> r == Some(ArgumentOutOfRangeException)
    ensures batchSize > MaxArrayLength ==> r == Some(OutOfMemoryException)
  {
    if batchSize < 0 then Some(ArgumentOutOfRangeException)
    else if batchSize > MaxArrayLength then Some(OutOfMemoryException)
    else None
  }

  /** How many items one `HandleBatch()` round dequeues from `available`
      once the chunk list exists (a capacity error is thrown before that). */
  function ChunkLength(batchSize: int, available: nat): (n: nat)
    ensures n <= available
    ensures batchSize >= 1 && available >= 1 ==> n >= 1
    ensures batchSize >= 0 ==> n <= batchSize
    ensures batchSize >= 0 && available >= batchSize ==> n == batchSize
    ensures batchSize >= 1 && available <= batchSize ==> n == available
  {
    if batchSize <= 0 then 0
    else if batchSize < available then batchSize
    else available
  }

  /** The chunk list and dequeue loop of `HandleBatch()`: a list with
      capacity `batchSize` is created, which throws for a negative size or
      one above the array limit before anything is dequeued; then up to
      `batchSize` items are taken from the front of `queue`, stopping early
      when it runs dry. */
  method DequeueChunk<T>(batchSize: int, queue: seq<T>)
    returns (error: Option<Exception>, chunk: seq<T>, rest: seq<T>)
    ensures error.Some? <==> batchSize < 0 || batchSize > MaxArrayLength
    ensures batchSize < 0 ==> error == Some(ArgumentOutOfRangeException)
    ensures batchSize > MaxArrayLength ==> error == Some(OutOfMemoryException)
    ensures error.Some? ==> chunk == [] && rest == queue
    ensures chunk + rest == queue
    ensures error.None? ==> |chunk| == ChunkLength(batchSize, |queue|)
  {
    chunk := [];
    rest := queue;
    error := CapacityError(batchSize);
    if error.Some? {
      return;
    }
    var i := 0;
    while i < batchSize
      invariant chunk + rest == queue
      invariant |chunk| == i
      invariant i <= batchSize
    {
      if |rest| == 0 {
        break;
      }
      chunk := chunk + [rest[0]];
      rest := rest[1..];
      i := i + 1;
    }
  }

  /** `HandleBatch()`: nothing on an empty queue; a negative batch size or
      one above the array limit throws when the chunk list is created;
      otherwise one chunk of the oldest items is dequeued and dispatched. */
  function TakeChunk<T>(o: Options, s: Batcher<T>): (r: Result<Batcher<T>, Exception>)
    ensures r.Failure? <==> |s.queue| > 0 && (o.batchSize < 0 || o.batchSize > MaxArrayLength)
    ensures r.Failure? && o.batchSize < 0 ==> r.error == ArgumentOutOfRangeException
    ensures r.Failure? && o.batchSize > MaxArrayLength ==> r.error == OutOfMemoryException
    ensures |s.queue| == 0 ==> r == Success(s)
    ensures r.Success? && |s.queue| > 0 ==>
      && |r.value.dispatched| == |s.dispatched| + 1
      && r.value.dispatched[..|s.dispatched|] == s.dispatched
      && r.value.dispatched[|s.dispatched|] + r.value.queue == s.queue
      && |r.value.dispatched[|s.dispatched|]| == ChunkLength(o.batchSize, |s.queue|)
    ensures r.Success? ==>
      r.value.channel == s.channel && r.value.locker == s.locker && r.value.timerRunning == s.timerRunning
  {
    if |s.queue| == 0 then Success(s)
    else if CapacityError(o.batchSize).Some? then Failure(CapacityError(o.batchSize).value)
    else
      var n := ChunkLength(o.batchSize, |s.queue|);
      assert s.queue[..n] + s.queue[n..] == s.queue;
      Success(s.(queue := s.queue[n..], dispatched := s.dispatched + [s.queue[..n]]))
  }

  /** The chunks one uncontended flush dispatches and what stays queued. */
  datatype Rounds<T> = Rounds(chunks: seq<seq<T>>, rest: seq<T>)

  /** The do/while loop of `SafeHandleQueue` over `queue`: a `HandleBatch()`
      round, repeated while more than `batchSize` items remain. */
  function FlushLoop<T>(batchSize: int, queue: seq<T>): (r: Rounds<T>)
    requires batchSize >= 1
    ensures Flatten(r.chunks) + r.rest == queue
    ensures |queue| == 0 ==> r.chunks == [] && r.rest == []
    ensures |r.rest| <= batchSize
    ensures forall k :: 0 <= k < |r.chunks| ==> 1 <= |r.chunks[k]| <= batchSize
    decreases |queue|
  {
    if |queue| == 0 then Rounds([], [])
    else
      var n := ChunkLength(batchSize, |queue|);
      var chunk := queue[..n];
      var rest := queue[n..];
      assert chunk + rest == queue;
      if |rest| > batchSize then
        var more := FlushLoop(batchSize, rest);
        FlattenAppend([chunk], more.chunks);
        assert Flatten([chunk]) == chunk + Flatten([]);
        Rounds([chunk] + more.chunks, more.rest)
      else
        assert Flatten([chunk]) == chunk by {
          assert [chunk][1..] == [];
        }
        Rounds([chunk], rest)
  }

  /** The shape of the rounds: a queue of at most `batchSize` items goes
      out as one chunk, and a longer one as full chunks of `batchSize`
      followed by between one and `batchSize` items left queued, since the
      loop stops as soon as no more than `batchSize` remain. */
  lemma {:induction false} FlushLoopRounds<T>(batchSize: int, queue: seq<T>)
    requires batchSize >= 1
    ensures 1 <= |queue| <= batchSize ==>
      FlushLoop(batchSize, queue) == Rounds([queue], [])
    ensures |queue| > batchSize ==>
      var r := FlushLoop(batchSize, queue);
      && |r.chunks| >= 1
      && (forall k :: 0 <= k < |r.chunks| ==> |r.chunks[k]| == batchSize)
      && 1 <= |r.rest| <= batchSize
    decreases |queue|
  {
    if |queue| > batchSize {
      var rest := queue[batchSize..];
      if |rest| > batchSize {
        FlushLoopRounds(batchSize, rest);
      }
    } else if |queue| >= 1 {
      assert queue[..|queue|] == queue;
    }
  }

  /** Each do/while round is one `HandleBatch()`: the loop's first chunk is
      the one a single round takes, and the rest of the loop runs on what
      that round leaves when more than a batch remains. */
  lemma FlushLoopFirstRound<T>(o: Options, s: Batcher<T>)
    requires ValidBatchSize(o.batchSize) && |s.queue| > 0
    ensures var rounds := FlushLoop(o.batchSize, s.queue);
      var t := TakeChunk(o, s).value;
      && |rounds.chunks| >= 1
      && rounds.chunks[0] == t.dispatched[|s.dispatched|]
      && (|t.queue| > o.batchSize ==> rounds.chunks[1..] == FlushLoop(o.batchSize, t.queue).chunks)
      && (|t.queue| <= o.batchSize ==> rounds.chunks == [rounds.chunks[0]] && rounds.rest == t.queue)
  {
  }

  /** Entry of `SafeHandleQueue`: the timer is stopped and `Interlocked.Exchange`
      writes 1 into the lock; `acquired` is whether the lock was free. */
  datatype Entered<T> = Entered(state: Batcher<T>, acquired: bool)

  function Enter<T>(s: Batcher<T>): (r: Entered<T>)
    ensures !r.state.timerRunning && r.state.locker == 1
    ensures r.acquired <==> s.locker == 0
    ensures r.state.channel == s.channel && r.state.queue == s.queue && r.state.dispatched == s.dispatched
  {
    Entered(s.(timerRunning := false, locker := 1), s.locker == 0)
  }

  /** The `finally` block: the lock is written 0 and the timer restarted,
      whether or not this attempt acquired the lock. */
  function Release<T>(s: Batcher<T>): (r: Batcher<T>)
    ensures r.locker == 0 && r.timerRunning
    ensures r.channel == s.channel && r.queue == s.queue && r.dispatched == s.dispatched
  {
    s.(locker := 0, timerRunning := true)
  }

  /** The end of one flush attempt: it returns with a state (and whether an
      exception was caught and logged), or its do/while does not end on
      its own: it spins with the lock held and the timer stopped. */
  datatype Attempt<T> = Completed(state: Batcher<T>, logged: bool) | Diverges

  /** The `try` body once the lock is held and the batch size is one the
      chunk list accepts: the do/while loop of `HandleBatch()` rounds.
      `fault == Some(k)` means the body throws when about to start round
      k + 1, if the loop gets that far; the exception is caught and logged,
      and the rounds already taken stay dispatched. */
  function FlushBody<T>(batchSize: int, s: Batcher<T>, fault: Option<nat>): (r: Attempt<T>)
    requires ValidBatchSize(batchSize)
    ensures r.Completed?
    ensures r.state.channel == s.channel && r.state.locker == s.locker
    ensures r.state.timerRunning == s.timerRunning
    ensures |s.dispatched| <= |r.state.dispatched|
    ensures r.state.dispatched[..|s.dispatched|] == s.dispatched
    ensures Flatten(r.state.dispatched[|s.dispatched|..]) + r.state.queue == s.queue
    ensures |s.queue| == 0 ==> r.state.dispatched == s.dispatched && !r.logged
    ensures fault.None? ==>
      && !r.logged
      && r.state.dispatched[|s.dispatched|..] == FlushLoop(batchSize, s.queue).chunks
      && r.state.queue == FlushLoop(batchSize, s.queue).rest
    ensures r.logged ==> fault.Some?
    ensures r.state.dispatched[|s.dispatched|..] <= FlushLoop(batchSize, s.queue).chunks
  {
    var rounds := FlushLoop(batchSize, s.queue);
    var done := if fault.Some? && fault.value < |rounds.chunks| then fault.value else |rounds.chunks|;
    var sent := rounds.chunks[..done];
    var left := Flatten(rounds.chunks[done..]) + rounds.rest;
    FlattenSplit(rounds.chunks, done);
    assert Flatten(sent) + left == s.queue;
    var body := s.(queue := left, dispatched := s.dispatched + sent);
    assert body.dispatched[..|s.dispatched|] == s.dispatched;
    assert body.dispatched[|s.dispatched|..] == sent;
    assert sent <= rounds.chunks;
    Completed(body, done < |rounds.chunks|)
  }

  /** One `SafeHandleQueue` call: stop the timer, try to take the lock, run
      the body if it was free, then the `finally`. With a batch size of 0
      each round takes nothing, so the do/while only ends when the queue
      is already empty. With a negative size, or one above the array limit,
      the first round throws when the queue has items, and the exception is
      logged. On an empty queue the round returns early: `0 > BatchSize`
      ends the loop at once for a large size, but keeps a negative size
      spinning. That spin ends only when a concurrently drained message
      makes a round throw; with steps taken one at a time it is `Diverges`. */
  function SafeHandleQueue<T>(o: Options, s: Batcher<T>, fault: Option<nat>): (r: Attempt<T>)
    ensures r.Diverges? <==>
      && s.locker == 0
      && ((o.batchSize == 0 && |s.queue| > 0) || (o.batchSize < 0 && |s.queue| == 0))
    ensures r.Completed? ==>
      && r.state.locker == 0 && r.state.timerRunning
      && r.state.channel == s.channel
      && |s.dispatched| <= |r.state.dispatched|
      && r.state.dispatched[..|s.dispatched|] == s.dispatched
      && Flatten(r.state.dispatched[|s.dispatched|..]) + r.state.queue == s.queue
    ensures s.locker != 0 ==>
      r.Completed? && !r.logged && r.state.queue == s.queue && r.state.dispatched == s.dispatched
    ensures s.locker == 0 && |s.queue| > 0 && (o.batchSize < 0 || o.batchSize > MaxArrayLength) ==>
      r.Completed? && r.logged && r.state.queue == s.queue && r.state.dispatched == s.dispatched
    ensures r.Completed? && |s.queue| == 0 ==> r.state.dispatched == s.dispatched && !r.logged
    ensures r.Completed? && r.logged ==>
      s.locker == 0 && (fault.Some? || o.batchSize < 0 || o.batchSize > MaxArrayLength)
  {
    var entered := Enter(s);
    if !entered.acquired then Completed(Release(entered.state), false)
    else if o.batchSize < 0 then
      if |s.queue| > 0 then Completed(Release(entered.state), true)
      else Diverges
    else if o.batchSize == 0 then
      if |s.queue| == 0 then Completed(Release(entered.state), false)
      else Diverges
    else if o.batchSize > MaxArrayLength then
      Completed(Release(entered.state), |s.queue| > 0)
    else
      var body := FlushBody(o.batchSize, entered.state, fault);
      Completed(Release(body.state), body.logged)
  }

  /** An uncontended attempt without an exception dispatches exactly the
      do/while loop's chunks and leaves its remainder queued; with a batch
      size above the array limit a non-empty queue makes it throw and
      dispatch nothing. */
  lemma UncontendedFlushState<T>(o: Options, s: Batcher<T>)
    requires s.locker == 0 && s.timerRunning && o.batchSize >= 1
    ensures o.batchSize <= MaxArrayLength || |s.queue| == 0 ==>
      var rounds := FlushLoop(o.batchSize, s.queue);
      SafeHandleQueue(o, s, None) ==
        Completed(s.(queue := rounds.rest, dispatched := s.dispatched + rounds.chunks), false)
    ensures o.batchSize > MaxArrayLength && |s.queue| > 0 ==> SafeHandleQueue(o, s, None) == Completed(s, true)
  {
    if o.batchSize <= MaxArrayLength {
      var rounds := FlushLoop(o.batchSize, s.queue);
      var body := FlushBody(o.batchSize, Enter(s).state, None);
      assert body.state.dispatched == s.dispatched + rounds.chunks by {
        assert body.state.dispatched[..|s.dispatched|] == s.dispatched;
        assert body.state.dispatched == body.state.dispatched[..|s.dispatched|] + body.state.dispatched[|s.dispatched|..];
      }
    }
  }

  /** An uncontended flush that completes without an exception: the
      chunk sizes depend only on how many items were queued. A batch size
      above the array limit dispatches nothing. */
  lemma UncontendedFlush<T>(o: Options, s: Batcher<T>)
    requires s.locker == 0 && o.batchSize >= 1
    ensures SafeHandleQueue(o, s, None).Completed?
    ensures var r := SafeHandleQueue(o, s, None).state;
      var sent := r.dispatched[|s.dispatched|..];
      && (|s.queue| == 0 ==> sent == [] && r.queue == [])
      && (o.batchSize > MaxArrayLength ==> sent == [] && r.queue == s.queue)
      && (1 <= |s.queue| <= o.batchSize <= MaxArrayLength ==> sent == [s.queue] && r.queue == [])
      && (o.batchSize <= MaxArrayLength && |s.queue| > o.batchSize ==>
            && |sent| >= 1
            && (forall k :: 0 <= k < |sent| ==> |sent[k]| == o.batchSize)
            && 1 <= |r.queue| <= o.batchSize)
  {
    FlushLoopRounds(o.batchSize, s.queue);
  }

  /** Even an attempt cut short by an exception only ever hands the
      handler chunks of between one and `BatchSize` items. */
  lemma CompletedChunksBounded<T>(o: Options, s: Batcher<T>, fault: Option<nat>)
    requires o.batchSize >= 1 && SafeHandleQueue(o, s, fault).Completed?
    ensures var d := SafeHandleQueue(o, s, fault).state.dispatched;
      forall k :: |s.dispatched| <= k < |d| ==> 1 <= |d[k]| <= o.batchSize
  {
    var d := SafeHandleQueue(o, s, fault).state.dispatched;
    if s.locker == 0 && ValidBatchSize(o.batchSize) {
      var rounds := FlushLoop(o.batchSize, s.queue);
      var sent := d[|s.dispatched|..];
      assert sent <= rounds.chunks;
      forall k | |s.dispatched| <= k < |d|
        ensures 1 <= |d[k]| <= o.batchSize
      {
        assert d[k] == sent[k - |s.dispatched|] == rounds.chunks[k - |s.dispatched|];
      }
    }
  }

  /** A flush attempt that finds the lock taken dispatches nothing, but its
      `finally` still clears the lock: a later attempt then acquires it and
      dispatches while the first holder may still be running, so the flag
      does not give mutual exclusion. */
  lemma ContendedAttemptReleasesForeignLock<T>(o: Options, s: Batcher<T>)
    requires s.locker == 1 && o.batchSize >= 1 && |s.queue| > 0
    ensures var skipped := SafeHandleQueue(o, s, None);
      && skipped.Completed?
      && skipped.state.dispatched == s.dispatched
      && skipped.state.locker == 0
      && var second := SafeHandleQueue(o, skipped.state, None);
         && second.Completed?
         && (o.batchSize <= MaxArrayLength ==> |second.state.dispatched| > |s.dispatched|)
  {
    var skipped := SafeHandleQueue(o, s, None);
    UncontendedFlush(o, skipped.state);
  }

  /** Corrected flush attempt: one that finds the lock taken returns before
      touching the lock or the timer, leaving them to the attempt that holds
      the lock. */
  function SafeHandleQueueExclusive<T>(o: Options, s: Batcher<T>, fault: Option<nat>): (r: Attempt<T>)
    ensures s.locker != 0 ==> r == Completed(s, false)
    ensures s.locker == 0 ==> r == SafeHandleQueue(o, s, fault)
  {
    if s.locker != 0 then Completed(s, false) else SafeHandleQueue(o, s, fault)
  }

  /** With the corrected attempt, a flush in progress keeps its lock and no
      second attempt can acquire it. */
  lemma ExclusiveAttemptKeepsLock<T>(o: Options, s: Batcher<T>, f: Option<nat>, g: Option<nat>)
    requires s.locker == 1
    ensures var first := SafeHandleQueueExclusive(o, s, f);
      && first == Completed(s, false)
      && SafeHandleQueueExclusive(o, first.state, g) == Completed(s, false)
  {
  }

  /** A builder that sets `WithBatchSize(0)` makes the first flush after a
      message arrives run forever: each round takes nothing, so the
      queue never shrinks. */
  lemma ZeroBatchSizeDiverges<T>(message: T)
    ensures var o := Build([WithBatchSize(0)]);
      var s := DrainStep(o, Publish(Start(), message)).state;
      SafeHandleQueue(o, s, None) == Diverges
  {
  }

  /** A builder that sets a negative batch size: the first flush after a
      message arrives throws when it creates the chunk list, logs the
      exception and leaves the message queued; a flush on an empty queue
      spins with the lock held until a message is drained alongside it. */
  lemma NegativeBatchSize<T>(message: T)
    ensures var o := Build([WithBatchSize(-1)]);
      var s := DrainStep(o, Publish(Start(), message)).state;
      && SafeHandleQueue(o, s, None) == Completed(Batcher([], [message], [], 0, true), true)
      && SafeHandleQueue(o, Start<T>(), None) == Diverges
  {
  }

  /** A builder that sets the largest `int` as batch size, a natural way to
      ask for timer-only flushes: the first flush after a message arrives
      cannot allocate the chunk list, logs the exception and leaves the
      message queued. */
  lemma OversizedBatchSize<T>(message: T)
    ensures var o := Build([WithBatchSize(0x7FFF_FFFF)]);
      var s := DrainStep(o, Publish(Start(), message)).state;
      SafeHandleQueue(o, s, None) == Completed(Batcher([], [message], [], 0, true), true)
  {
  }

  /** With options from the corrected builder every flush attempt returns. */
  lemma CheckedOptionsNeverDiverge<T>(steps: seq<Step>, s: Batcher<T>, fault: Option<nat>)
    requires BuildChecked(steps).Success?
    ensures SafeHandleQueue(BuildChecked(steps).value, s, fault).Completed?
  {
  }

  /** With options from the corrected builder, only an injected fault makes
      an attempt log an exception: the chunk list can always be created. */
  lemma CheckedOptionsOnlyFaultsLog<T>(steps: seq<Step>, s: Batcher<T>)
    requires BuildChecked(steps).Success?
    ensures !SafeHandleQueue(BuildChecked(steps).value, s, None).logged
  {
  }

  /** The do/while rounds of the worked example, on five items and on the
      one left over. */
  lemma FiveItemsRounds()
    ensures FlushLoop(2, [1, 2, 3, 4, 5]) == Rounds([[1, 2], [3, 4]], [5])
    ensures FlushLoop(2, [5]) == Rounds([[5]], [])
  {
    var q := [1, 2, 3, 4, 5];
    assert q[..2] == [1, 2] && q[2..] == [3, 4, 5];
    assert [3, 4, 5][..2] == [3, 4] && [3, 4, 5][2..] == [5];
    assert FlushLoop(2, [3, 4, 5]) == Rounds([[3, 4]], [5]);
    assert [5][..1] == [5] && [5][1..] == [];
  }

  /** The worked example: batch size 2 and five queued items. The first
      flush dispatches [1, 2] and [3, 4] back to back and leaves [5]; the
      next timer tick dispatches [5]. */
  lemma FiveItemsBatchSizeTwo()
    ensures var o := Options(2, 100, false, 3);
      var s := Batcher([], [1, 2, 3, 4, 5], [], 0, true);
      var first := SafeHandleQueue(o, s, None);
      && first.Completed?
      && first.state.dispatched == [[1, 2], [3, 4]]
      && first.state.queue == [5]
      && var second := SafeHandleQueue(o, first.state, None);
         second.Completed? && second.state.dispatched == [[1, 2], [3, 4], [5]] && second.state.queue == []
  {
    var o := Options(2, 100, false, 3);
    FiveItemsRounds();
    var s := Batcher([], [1, 2, 3, 4, 5], [], 0, true);
    UncontendedFlushState(o, s);
    var mid := Batcher([], [5], [[1, 2], [3, 4]], 0, true);
    assert SafeHandleQueue(o, s, None) == Completed(mid, false);
    UncontendedFlushState(o, mid);
  }

  /** What drives the processor: a publish, one drain-loop turn, or a flush
      attempt from the timer or the size trigger. */
  datatype Event<T> = OnPublish(message: T) | OnRead | OnFlush(fault: Option<nat>)

  /** One event; `None` when a flush attempt does not end on its own. Only a flush
      dispatches, and it only appends to the dispatched log. */
  function Step<T>(o: Options, s: Batcher<T>, e: Event<T>): (r: Option<Batcher<T>>)
    ensures r.None? <==>
      && e.OnFlush? && s.locker == 0
      && ((o.batchSize == 0 && |s.queue| > 0) || (o.batchSize < 0 && |s.queue| == 0))
    ensures r.Some? && !e.OnFlush? ==> r.value.dispatched == s.dispatched
    ensures r.Some? ==>
      |s.dispatched| <= |r.value.dispatched| && r.value.dispatched[..|s.dispatched|] == s.dispatched
  {
    match e
    case OnPublish(m) => Some(Publish(s, m))
    case OnRead => Some(DrainStep(o, s).state)
    case OnFlush(f) =>
      match SafeHandleQueue(o, s, f)
      case Completed(s', _) => Some(s')
      case Diverges => None
  }

  /** Events applied in order; `None` once a flush does not end on its own. The
      dispatched log only grows. */
  function Run<T>(o: Options, s: Batcher<T>, events: seq<Event<T>>): (r: Option<Batcher<T>>)
    ensures |events| == 0 ==> r == Some(s)
    ensures r.Some? ==>
      |s.dispatched| <= |r.value.dispatched| && r.value.dispatched[..|s.dispatched|] == s.dispatched
    decreases |events|
  {
    if |events| == 0 then Some(s)
    else
      match Step(o, s, events[0])
      case None => None
      case Some(s') =>
        var r := Run(o, s', events[1..]);
        assert r.Some? ==> r.value.dispatched[..|s.dispatched|] == s'.dispatched[..|s.dispatched|];
        r
  }

  /** The messages an event publishes. */
  function EventMessages<T>(e: Event<T>): seq<T>
  {
    if e.OnPublish? then [e.message] else []
  }

  /** The messages published by `events`, in order. */
  function Published<T>(events: seq<Event<T>>): seq<T>
  {
    if |events| == 0 then [] else EventMessages(events[0]) + Published(events[1..])
  }

  /** Every message the processor holds, oldest first: dispatched chunks,
      then the queue, then the channel. */
  function Contents<T>(s: Batcher<T>): seq<T>
  {
    Flatten(s.dispatched) + s.queue + s.channel
  }

  /** Regrouping a concatenation, kept apart so the solver sees only sequences. */
  lemma Assoc<T>(all: seq<T>, a: seq<T>, b: seq<T>, q1: seq<T>, q0: seq<T>)
    requires all == a + b && b + q1 == q0
    ensures all + q1 == a + q0
  {
  }

  /** Moving items from the front of the queue onto the end of the
      dispatched log keeps their overall order. */
  lemma DispatchKeepsOrder<T>(d0: seq<seq<T>>, d1: seq<seq<T>>, q0: seq<T>, q1: seq<T>)
    requires |d0| <= |d1| && d1[..|d0|] == d0
    requires Flatten(d1[|d0|..]) + q1 == q0
    ensures Flatten(d1) + q1 == Flatten(d0) + q0
  {
    FlattenSplit(d1, |d0|);
    Assoc(Flatten(d1), Flatten(d0), Flatten(d1[|d0|..]), q1, q0);
  }

  /** A completed flush attempt keeps every held message in place. */
  lemma FlushConserves<T>(o: Options, s: Batcher<T>, f: Option<nat>)
    requires SafeHandleQueue(o, s, f).Completed?
    ensures Contents(SafeHandleQueue(o, s, f).state) == Contents(s)
  {
    var s' := SafeHandleQueue(o, s, f).state;
    DispatchKeepsOrder(s.dispatched, s'.dispatched, s.queue, s'.queue);
  }

  /** One event keeps every held message in place and appends what it
      publishes; a completed flush leaves the lock free and the timer running. */
  lemma StepConserves<T>(o: Options, s: Batcher<T>, e: Event<T>)
    requires s.locker == 0 && s.timerRunning
    requires Step(o, s, e).Some?
    ensures Contents(Step(o, s, e).value) == Contents(s) + EventMessages(e)
    ensures Step(o, s, e).value.locker == 0 && Step(o, s, e).value.timerRunning
  {
    match e {
      case OnPublish(m) =>
        assert Contents(Publish(s, m)) == Contents(s) + [m];
      case OnRead =>
      case OnFlush(f) =>
        FlushConserves(o, s, f);
    }
  }

  /** No message is lost, duplicated or reordered: the held messages after
      a run are those before it followed by everything the run published,
      in publish order. Between events the lock is free and the timer runs. */
  lemma {:induction false} RunConserves<T>(o: Options, s: Batcher<T>, events: seq<Event<T>>)
    requires s.locker == 0 && s.timerRunning
    requires Run(o, s, events).Some?
    ensures Contents(Run(o, s, events).value) == Contents(s) + Published(events)
    ensures Run(o, s, events).value.locker == 0 && Run(o, s, events).value.timerRunning
    decreases |events|
  {
    if |events| > 0 {
      var s' := Step(o, s, events[0]).value;
      assert Run(o, s, events) == Run(o, s', events[1..]);
      StepConserves(o, s, events[0]);
      RunConserves(o, s', events[1..]);
    }
  }

  /** From a fresh start, everything dispatched is a prefix of what was
      published, in publish order. */
  lemma DispatchedIsPublishedPrefix<T>(o: Options, events: seq<Event<T>>)
    requires Run(o, Start(), events).Some?
    ensures Flatten(Run(o, Start(), events).value.dispatched) <= Published(events)
  {
    RunConserves(o, Start(), events);
    var r := Run(o, Start(), events).value;
    assert Contents(Start<T>()) == [];
    assert Contents(r) == Published(events);
    assert Published(events) == Flatten(r.dispatched) + (r.queue + r.channel);
  }
}

=== FILE: text.dfy ===
/** String helpers with the semantics of the .NET members the model needs:
    `String.Split(char)`, ordinal `IndexOf`/`Contains`, ordinal case-insensitive
    equality (ASCII letters only) and decimal formatting of non-negative integers. */
module Text {

  /** Joins `parts` with `sep` between consecutive parts. */
  function Join(parts: seq<string>, sep: char): string
    requires |parts| >= 1
  {
    if |parts| == 1 then parts[0] else parts[0] + [sep] + Join(parts[1..], sep)
  }

  /** `s.Split(sep)`: every separator ends a part, empty parts included. */
  function Split(s: string, sep: char): (parts: seq<string>)
    ensures |parts| >= 1
    ensures forall i :: 0 <= i < |parts| ==> sep !in parts[i]
    ensures Join(parts, sep) == s
  {
    if |s| == 0 then [""]
    else
      var rest := Split(s[1..], sep);
      if s[0] == sep then
        assert s == [] + [sep] + s[1..];
        [""] + rest
      else
        assert s == [s[0]] + s[1..];
        [[s[0]] + rest[0]] + rest[1..]
  }

  /** A leading separator ends an empty first part. */
  lemma SplitSeparatorFirst(s: string, sep: char)
    ensures Split([sep] + s, sep) == [""] + Split(s, sep)
  {
    assert ([sep] + s)[1..] == s;
  }

  /** A leading non-separator belongs to the first part. */
  lemma SplitCharFirst(c: char, s: string, sep: char)
    requires c != sep
    ensures var rest := Split(s, sep);
      Split([c] + s, sep) == [[c] + rest[0]] + rest[1..]
  {
    assert ([c] + s)[1..] == s;
  }

  /** A sequence without the separator splits into itself alone. */
  lemma {:induction false} SplitWithoutSeparator(p: string, sep: char)
    requires sep !in p
    ensures Split(p, sep) == [p]
    decreases |p|
  {
    if |p| > 0 {
      SplitWithoutSeparator(p[1..], sep);
      assert p == [p[0]] + p[1..];
      SplitCharFirst(p[0], p[1..], sep);
    }
  }

  /** Splitting a joined sequence of separator-free parts gives the parts back. */
  lemma {:induction false} SplitJoin(parts: seq<string>, sep: char)
    requires |parts| >= 1
    requires forall i :: 0 <= i < |parts| ==> sep !in parts[i]
    ensures Split(Join(parts, sep), sep) == parts
    decreases |parts|, |parts[0]|, 1
  {
    if |parts| == 1 {
      SplitWithoutSeparator(parts[0], sep);
    } else if |parts[0]| == 0 {
      SplitJoinEmptyFirst(parts, sep);
    } else {
      SplitJoinCharFirst(parts, sep);
    }
  }

  /** `SplitJoin` when the first part is empty. */
  lemma {:induction false} SplitJoinEmptyFirst(parts: seq<string>, sep: char)
    requires |parts| >= 2 && parts[0] == ""
    requires forall i :: 0 <= i < |parts| ==> sep !in parts[i]
    ensures Split(Join(parts, sep), sep) == parts
    decreases |parts|, |parts[0]|, 0
  {
    var tail := parts[1..];
    SplitJoin(tail, sep);
    assert Join(parts, sep) == [sep] + Join(tail, sep);
    SplitSeparatorFirst(Join(tail, sep), sep);
    assert parts == [""] + tail;
  }

  /** `SplitJoin` when the first part starts with a character. */
  lemma {:induction false} SplitJoinCharFirst(parts: seq<string>, sep: char)
    requires |parts| >= 2 && |parts[0]| > 0
    requires forall i :: 0 <= i < |parts| ==> sep !in parts[i]
    ensures Split(Join(parts, sep), sep) == parts
    decreases |parts|, |parts[0]|, 0
  {
    var p := parts[0];
    var shorter := [p[1..]] + parts[1..];
    assert shorter[1..] == parts[1..];
    SplitJoin(shorter, sep);
    assert Join(parts, sep) == [p[0]] + Join(shorter, sep);
    SplitCharFirst(p[0], Join(shorter, sep), sep);
    assert p == [p[0]] + p[1..];
    assert parts == [[p[0]] + shorter[0]] + shorter[1..];
  }

  /** The last element of a non-empty sequence. */
  function Last<T>(s: seq<T>): T
    requires |s| >= 1
  {
    s[|s| - 1]
  }

  /** `sub` occurs in `s` starting at index `i`. */
  predicate OccursAt(s: string, sub: string, i: int)
  {
    0 <= i && i + |sub| <= |s| && s[i..i + |sub|] == sub
  }

  /** Ordinal `s.IndexOf(sub)` searching from `from`: the first occurrence
      at or after `from`, or -1 when there is none. */
  function IndexOfFrom(s: string, sub: string, from: nat): (r: int)
    ensures r == -1 || (from <= r && OccursAt(s, sub, r))
    ensures r == -1 ==> forall k :: from <= k ==> !OccursAt(s, sub, k)
    ensures r != -1 ==> forall k :: from <= k < r ==> !OccursAt(s, sub, k)
    decreases |s| - from
  {
    if from + |sub| > |s| then -1
    else if s[from..from + |sub|] == sub then from
    else IndexOfFrom(s, sub, from + 1)
  }

  /** Ordinal `s.IndexOf(sub)`. */
  function IndexOf(s: string, sub: string): int
  {
    IndexOfFrom(s, sub, 0)
  }

  /** Ordinal `s.Contains(sub)`: `sub` occurs somewhere in `s`. */
  function Contains(s: string, sub: string): (r: bool)
    ensures r <==> exists k :: OccursAt(s, sub, k)
  {
    IndexOf(s, sub) >= 0
  }

  /** Upper-casing of ASCII letters; every other character is unchanged. */
  function UpperAscii(c: char): char
  {
    if 'a' <= c <= 'z' then (c as int - 32) as char else c
  }

  /** Lower-casing of ASCII letters; every other character is unchanged. */
  function LowerAscii(c: char): char
  {
    if 'A' <= c <= 'Z' then (c as int + 32) as char else c
  }

  /** Lower-cases the ASCII letters of `s`. */
  function LowerAsciiString(s: string): (r: string)
    ensures |r| == |s|
    ensures forall i :: 0 <= i < |s| ==> r[i] == LowerAscii(s[i])
  {
    if |s| == 0 then "" else [LowerAscii(s[0])] + LowerAsciiString(s[1..])
  }

  /** `string.Equals(a, b, StringComparison.OrdinalIgnoreCase)` over ASCII case. */
  predicate EqualsIgnoreCase(a: string, b: string)
  {
    |a| == |b| && forall i :: 0 <= i < |a| ==> UpperAscii(a[i]) == UpperAscii(b[i])
  }

  /** Decimal digits of `n`, most significant first, as `long.ToString()` writes them. */
  function Decimal(n: nat): (r: string)
    ensures |r| >= 1
    ensures forall i :: 0 <= i < |r| ==> '0' <= r[i] <= '9'
  {
    if n < 10 then [Digit(n)] else Decimal(n / 10) + [Digit(n % 10)]
  }

  function Digit(d: nat): (c: char)
    requires d < 10
    ensures '0' <= c <= '9'
  {
    (48 + d) as char
  }

  /** The value of a string of decimal digits. */
  function DecimalValue(s: string): nat
    requires forall i :: 0 <= i < |s| ==> '0' <= s[i] <= '9'
  {
    if |s| == 0 then 0 else 10 * DecimalValue(s[..|s| - 1]) + (s[|s| - 1] as int - 48)
  }

  /** Reading back the decimal form of `n` gives `n`, so `Decimal` is injective. */
  lemma {:induction false} DecimalRoundTrip(n: nat)
    ensures DecimalValue(Decimal(n)) == n
  {
    if n >= 10 {
      DecimalRoundTrip(n / 10);
      var d := Decimal(n);
      assert d[..|d| - 1] == Decimal(n / 10);
    }
  }
}

=== FILE: wrappers.dfy ===
/** Failure-carrying datatypes shared by the whole model. */
module Wrappers {

  /** A possibly-absent value; stands for a nullable reference. */
  datatype Option<+T> = None | Some(value: T)

  /** The outcome of an operation that may throw. */
  datatype Result<+T, +E> = Success(value: T) | Failure(error: E)

  /** The .NET exceptions the modelled code can raise. */
  datatype Exception =
    | ArgumentNullException
    | ArgumentOutOfRangeException
    | NullReferenceException
    | FormatException
    | OutOfMemoryException
}
